=== FILE: README.md ===
# Horizon bookkeeping in Dafny

A model of three pieces of sequential bookkeeping from the Horizon trajectory
optimisation framework, with proofs of what each of them promises. The symbolic
layer and the solver are left out.

- **The node-indexed variable store** (`horizon/variables.py`).
  - A variable is projected onto an ordered list of horizon nodes. It keeps one
    `{lb, ub, w0}` record per node.
  - Setters check the value length and write only the selected nodes.
  - Offset views resolve node `n` to the parent's node `n + offset` and
    re-read the parent's records on every access.
  - Aggregates lay their members out in one flat vector.
  - The container reprojects every variable when the horizon length changes.
- **The action scheduler** (`horizon/utils/actionManager.py`).
  - Per contact frame it keeps contact, z-clearance and xy-target node lists
    and their reference arrays.
  - `_step` turns a step into swing and stance nodes and a swing-height
    polynomial.
  - `execute` moves every pending step back one node per cycle and drops the
    expired ones.
  - `_update_initial_state` shifts the previous solution one column for the
    warm start.
- **The receding tasks** (`horizon/rhc/receding_tasks.py`).
  - A Cartesian task is activated on, and recedes over, a `[k_start, k_goal)`
    node range, with numpy broadcasting of its goal.
  - A contact maintains its contact and unilateral node lists and pins or
    frees its force bounds.

Modules, one per file:

| file | module | models |
|---|---|---|
| `common.dfy` | `Common` | extended floats (`Num`), `Option`, `Outcome` (a call that may raise part-way, with the state at the raise), column-major `Matrix` |
| `node_lists.dfy` | `NodeLists` | `range`, filters, shifts, `checkNodes`, the de-duplicating append, sorting |
| `polynomial.dfy` | `Polynomial` | `_trj`, the swing polynomial and `_barrier`, over exact reals |
| `variables.dfy` | `Variables` | `Variable`, `OffsetVariable`, `SingleVariable`, `Parameter` |
| `aggregate.dfy` | `Aggregates` | `Aggregate.getVarIndex` and the bound setters |
| `container.dfy` | `Containers` | `VariablesContainer.createVar`/`setVar`/`removeVar`/`setNNodes` |
| `action_manager.dfy` | `ActionManager` | `ActionManager` |
| `receding_tasks.dfy` | `RecedingTasks` | `CartesianTask`, `Contact` |

Conventions:
- Exceptions the source raises on purpose are modelled as an `Outcome`:
  - the dimension checks and the `ValueError` of `activate`;
  - a numpy broadcasting error;
  - the missing `Parameter._setNNodes`.

  Python leaves earlier writes in place, so a `Raised` outcome carries the
  state at the moment of the raise.
- Crashes the source never means to hit become preconditions. These are
  `KeyError` on an unknown frame or an unknown default foot height, and
  `IndexError` on a start or goal of fewer than three coordinates
  (`ActionManager.CanStep`).
- Symbols are opaque `Symbol` handles. Each carries the projection batch
  (`gen`) that created it, so a symbol created later is never equal to an
  older one, as every `cs.SX.sym` call yields a new object.
- Bounds and guesses are `NegInf | Fin(real) | PosInf`.
- Trajectory arithmetic is over `real`.

## Model

| member | source | states |
|---|---|---|
| Polynomial.Trj | horizon/utils/actionManager.py:24-25 | the bump `64τ³(1-τ)³` vanishes at τ = 0 and τ = 1 |
| Polynomial.TrjBounds | horizon/utils/actionManager.py:24-25 | for τ in [0, 1] the bump lies in [0, 1], so `clearance` is the swing's extra height |
| Polynomial.TrjPeakAndSymmetry | horizon/rhc/receding_tasks.py:13-14 | the bump reaches exactly 1 at mid-swing and is symmetric under τ ↦ 1-τ |
| Polynomial.PolyEndpoints | horizon/utils/actionManager.py:112-116 | the swing value is `start` at node `k_start` and `goal` at node `k_start + duration`, whatever the clearance |
| Polynomial.TauInSwing | horizon/utils/actionManager.py:113 | a node inside the swing has its phase τ in [0, 1] |
| Polynomial.PolyAtWithin | horizon/utils/actionManager.py:113-115 | inside the swing the value lies between the straight start-goal line and that line raised by the clearance |
| Polynomial.BarrierTerm | horizon/rhc/receding_tasks.py:10-11 | one component's penalty is never negative, and is positive exactly when the component is negative |
| Polynomial.Barrier | horizon/rhc/receding_tasks.py:10-11 | the barrier is never negative, and is zero exactly when every component is non-negative |
| Polynomial.BarrierMonotone | horizon/utils/actionManager.py:20-21 | increasing the violation of one component never decreases the penalty |
| NodeLists.Range | horizon/utils/actionManager.py:235 | `list(range(lo, hi))` holds exactly the integers of `[lo, hi)`, ascending, without repeats, `hi - lo` of them |
| NodeLists.AppendNew | horizon/utils/actionManager.py:202-207 | `_append_nodes` keeps the old list as a prefix, afterwards holds exactly the old and the new nodes, grows by at most the number of new nodes, and keeps a repeat-free list repeat-free |
| NodeLists.AppendNewIdempotent | horizon/utils/actionManager.py:202-207 | appending the same nodes a second time changes nothing |
| NodeLists.AppendNewAlreadyPresent | horizon/utils/actionManager.py:203-205 | appending nodes that are all present is a no-op |
| NodeLists.Sort | horizon/variables.py:574-575 | `list.sort()` yields an ascending permutation of the node list |
| NodeLists.CheckShiftedIsCheckNodes | horizon/variables.py:97-101 | checking against the shifted request is the same as shifting the request and then checking it, elementwise and in order |
| Variables.NewVariable | horizon/variables.py:562-583 | a new variable is valid, its node list is a permutation of the given one, sorted when given as a list and in the given order otherwise, and every given node has a default record (unbounded, guess 0) |
| Variables.Project | horizon/variables.py:708-729 | reprojection onto `ns` keeps the existing record of every node that stays, symbol included. Every new node gets a new symbol, distinct from every symbol the variable held, with lb = -inf, ub = +inf, w0 = 0. Records sit exactly on `ns` |
| Variables.SetField | horizon/variables.py:585-657 | `setLowerBounds` / `setUpperBounds` / `setInitialGuess` raise exactly when the length differs from `dim`. Otherwise they write the field of exactly the selected active nodes (all of them when `nodes` is None) and leave every other record, the node list and the views unchanged |
| Variables.SetBounds | horizon/variables.py:626-636 | `setBounds` succeeds exactly when both lengths match. On success it writes both bounds of the selected nodes. With a short upper bound the lower bounds stay written |
| Variables.GetVals | horizon/variables.py:751-769 | `_getVals` raises exactly when no active node is requested, because `np.hstack` receives an empty list. What a read that does not raise returns is stated by `Variables.GetValsBlocks` |
| Variables.GetValsBlocks | horizon/variables.py:751-782 | a read that does not raise, on all nodes or on an explicit request such as `getLowerBounds(node=k)`, returns `dim` numbers per selected node: block `i` is the field of the `i`-th requested active node, in active-node order |
| Variables.GetValsOfInactiveRaises | horizon/variables.py:762-767 | a read that requests only nodes the variable does not have raises |
| Variables.GatherBlock | horizon/variables.py:751-769 | in `_getVals`, block `i` of `dim` numbers is the requested field of the `i`-th selected node |
| Variables.GetValsMatchesImplDim | horizon/variables.py:751-769 | reading a field on all nodes of a variable that has nodes returns exactly `getImplDim()` = `dim · #nodes` numbers (variables.py:823-830), gathered in active-node order. Without nodes the read raises |
| Variables.GetValsAllActive | horizon/variables.py:751-769 | reading a field on all active nodes, when there are some, gathers every active node's block in order, `dim · #nodes` numbers in all |
| Variables.GetVarOffset | horizon/variables.py:659-687 | `getVarOffset` returns the view of that offset on the parent and caches it. Records, nodes and earlier views are kept. An offset already cached changes nothing |
| Variables.GetVarOffsetCached | horizon/variables.py:677-678 | a second request for the same offset returns the same view and leaves the variable unchanged |
| Variables.ResolveMembers | horizon/variables.py:93-104 | an offset read reaches exactly the parent nodes `m` that have a record and for which `m - offset` was requested (by default, is itself a parent node) |
| Variables.ResolveNoDup | horizon/variables.py:97-101 | an offset read reaches each parent node at most once |
| Variables.OffsetGetImpl | horizon/variables.py:80-106 | `OffsetVariable.getImpl` returns, in order, the parent's symbol at each resolved node, and every resolved node has a record in the parent |
| Variables.OffsetReadsShiftedNode | horizon/variables.py:97-104 | reading view node `n` returns the parent's symbol at `n + offset`, or nothing when the parent has no such node |
| Variables.OffsetFollowsReprojection | horizon/variables.py:727-729 | after the parent is reprojected onto `ns`, a default read reaches exactly the `m` in `ns` with `m - offset` in `ns`, because the view re-reads the shared records |
| Variables.NewSingleVariable | horizon/variables.py:356-373 | a single variable starts with every lower bound -inf, every upper bound +inf and a zero guess, of its dimension |
| Variables.SetSingleField | horizon/variables.py:375-426 | a single variable's setters raise exactly on a length other than `dim`. Otherwise they write that field and leave the other two unchanged |
| Variables.ProjectParameter | horizon/variables.py:243-259 | reprojecting a parameter keeps the value of every node that stays, gives new nodes the zero vector, and keeps values exactly on the new nodes |
| Variables.NewParameter | horizon/variables.py:224-241 | a new parameter holds the zero vector on each of its nodes |
| Variables.Assign | horizon/variables.py:270-290 | `assign` raises exactly when the value's first dimension is not `dim`. Otherwise it stores the value at exactly the selected active nodes and leaves the others unchanged |
| Aggregates.NameIndex | horizon/variables.py:1005-1006 | `names.index(name)` fails exactly when no member has the name, and otherwise is the first position holding it |
| Aggregates.GetVarIndex | horizon/variables.py:994-1008 | `getVarIndex` fails exactly when no member has the name. Otherwise it returns the offset of the first such member (the sum of the dims before it) and that member's dim |
| Aggregates.OffsetNext | horizon/variables.py:1055-1060 | member blocks are consecutive: each starts where the previous one ends |
| Aggregates.VarIndexOfFirst | horizon/variables.py:1005-1008 | the pair `getVarIndex` returns is the block of the first member of that name |
| Aggregates.AggSetField | horizon/variables.py:1034-1060 | the aggregate setters raise exactly when the flat vector is shorter than the sum of the dims. Each member before the first short slice receives its own block. The members from there on are untouched |
| Aggregates.VarIndexAddressesSetterBlock | horizon/variables.py:994-1060 | for a long enough vector, the `(offset, dim)` of `getVarIndex` addresses exactly the slice the setters write into that member |
| Containers.CreateVar | horizon/variables.py:1174-1191 | `createVar` stores the entry under its name, replacing any earlier one, and leaves every other entry unchanged |
| Containers.SetVar | horizon/variables.py:1193-1208 | `setVar` stores a single variable exactly when no nodes are given, and otherwise a plain variable on the given nodes, sorted exactly when they come as a list |
| Containers.RemoveVar | horizon/variables.py:1367-1372 | `removeVar` reports whether the name was present, and afterwards the name is absent and every other entry is unchanged |
| Containers.RemoveUndoesCreate | horizon/variables.py:1174-1191 | removing a freshly created variable restores the container, and a second removal reports False |
| Containers.ResizeVar | horizon/variables.py:1383-1391 | under `setNNodes(n)` a single variable is untouched; an input ends on exactly 0..n-2 and a state on exactly 0..n-1 (both sorted); a plain variable keeps exactly its nodes in `range(n)`. Surviving records are kept and new nodes get defaults |
| Containers.SetNNodesAsWritten | horizon/variables.py:1374-1397 | the written `setNNodes` raises exactly when a node-dependent parameter is stored. The variables are resized and the horizon recorded anyway |
| Containers.SetNNodesRaisesOnParameter | horizon/variables.py:1397 | a container holding one node-dependent parameter cannot be resized as written |
| Containers.ResizePar | horizon/variables.py:1397 | a node-dependent parameter keeps exactly its nodes in `range(n)` and their values. A single parameter is untouched |
| Containers.SetNNodes | horizon/variables.py:1374-1397 | the intended `setNNodes` reprojects every variable and parameter, keeps every name, and never raises |
| Containers.SetNNodesAgreesWithoutParameters | horizon/variables.py:1392-1397 | without node-dependent parameters the intended and the written resize coincide |
| Containers.SetNNodesIdempotent | horizon/variables.py:1374-1397 | resizing to the same horizon twice changes nothing the second time |
| Containers.ShrinkThenGrow | horizon/variables.py:713-725 | shrinking a state variable to `n` and growing it back to `m` keeps its records below `n` only, and the nodes in between come back with default records and new symbols, distinct from the ones they had |
| ActionManager.DefaultFrame | horizon/utils/actionManager.py:125-136 | the default action is in contact on exactly 0..N, ascending, with empty z and target lists and no references |
| ActionManager.SetDefaultAction | horizon/utils/actionManager.py:121-147 | `_set_default_action` puts every frame back to the default action and changes nothing else |
| ActionManager.NewManager | horizon/utils/actionManager.py:60-97 | a new scheduler has one record per contact frame, in contact on exactly the nodes 0..nNodes-1, and no pending steps |
| ActionManager.AppendParams | horizon/utils/actionManager.py:209-216 | `_append_params` takes the new array as is when there is none yet, and otherwise appends it after the old one |
| ActionManager.AppendParamsTwice | horizon/utils/actionManager.py:209-216 | two appends in a row give the same array as one append of both parts, so the reference does not depend on how the steps split it |
| ActionManager.ComputePolynomialTrajectory | horizon/utils/actionManager.py:99-119 | one value per input node, in order, each the swing polynomial at `τ = (k - k_start)/duration` |
| ActionManager.TrajectoryShape | horizon/utils/actionManager.py:99-119 | every value of the trajectory equals the start at `k_start` and the goal at `k_start + duration`, and lies between the line and the line plus clearance inside the swing |
| ActionManager.SwingInHorizon | horizon/utils/actionManager.py:235-241 | the in-horizon swing nodes are exactly those of `[k_start, k_goal)` in `[0, N]`, ascending |
| ActionManager.ActivatesIffSwingInHorizon | horizon/utils/actionManager.py:239-248 | a step is applied exactly when its swing range meets the horizon |
| ActionManager.OrDefault | horizon/utils/actionManager.py:268-269 | an empty start or goal becomes `[0, 0, default_foot_z]`, and a non-empty one is kept |
| ActionManager.StepAction | horizon/utils/actionManager.py:222-276 | `_step` reports whether it activated, exactly when the swing meets the horizon. A skipped step changes nothing. Otherwise only the step's frame changes |
| ActionManager.StepNodeLists | horizon/utils/actionManager.py:234-253 | the contact nodes become exactly the old ones outside `[k_start, k_goal)`, staying sorted. `k_goal` and the in-horizon swing nodes are appended to the target and z lists, after the nodes already there |
| ActionManager.StepReferences | horizon/utils/actionManager.py:259-273 | the z reference grows by one height per in-horizon swing node. The xy reference grows by the goal's first two coordinates exactly when `0 < k_goal ≤ N` and the goal is non-empty |
| ActionManager.StepAppendsHeights | horizon/utils/actionManager.py:271-273 | the swing heights are appended after the z references already there |
| ActionManager.SwingHeightsShape | horizon/utils/actionManager.py:268-271 | the heights use the default position for an empty start or goal. There is one height per in-horizon swing node, the first swing node gets the start height, and every height lies within the clearance band above the straight line from start to goal |
| ActionManager.SetStep | horizon/utils/actionManager.py:218-220 | `setStep` appends the step to the pending list and applies it. The frames are those `_step` leaves. The source returns nothing; the model's flag is the activation that `_step` computes |
| ActionManager.StepNodeListsIdempotent | horizon/utils/actionManager.py:202-253 | applying the same step twice leaves the node lists as applying it once |
| ActionManager.StepFromDefaultPartitions | horizon/utils/actionManager.py:234-253 | from the default action one step splits 0..N into contact nodes (outside the swing) and z nodes (inside it), with the target list exactly `[k_goal]` |
| ActionManager.ShiftBack | horizon/utils/actionManager.py:290-291 | `execute` moves both ends of a step back by one node and leaves the rest of it unchanged |
| ActionManager.ExpiredIff | horizon/utils/actionManager.py:292-297 | a step is dropped exactly when none of its nodes is at or after node 0 |
| ActionManager.Execute | horizon/utils/actionManager.py:278-297 | intended `execute`: the pending list becomes the shifted steps that have not expired, in order, and the frame keys are kept. The frames are stated by the lemmas below |
| ActionManager.StepAll | horizon/utils/actionManager.py:289-295 | stepping the pending actions keeps the frame keys and leaves every frame that no action names unchanged |
| ActionManager.StepAllByFrame | horizon/utils/actionManager.py:222-276 | stepping a list of actions treats every frame on its own: each frame ends as the reference `FrameRun` of its record over its own actions alone |
| ActionManager.ExecuteByFrame | horizon/utils/actionManager.py:286-295 | after `execute`, every frame holds what its own pending actions, each shifted back by one node, make of the default action |
| ActionManager.ExecuteResetsIdleFrames | horizon/utils/actionManager.py:286-287 | after `execute`, a frame that no pending action names is at the default action |
| ActionManager.ExecuteSingleAction | horizon/utils/actionManager.py:286-295 | with one pending action, its frame is that action, shifted back, applied to the default frame (the default itself when the swing misses the horizon). Every other frame is at the default |
| ActionManager.ExecuteKeepsLive | horizon/utils/actionManager.py:286-297 | after `execute`, every pending step has a node at or after 0, and every step that still had one after the shift is pending |
| ActionManager.ExecuteResets | horizon/utils/actionManager.py:286-297 | with nothing pending, `execute` leaves every frame at the default action |
| ActionManager.RunAsWritten | horizon/utils/actionManager.py:289-297 | the loop as written (removal while iterating) keeps the frame keys, the horizon and the default heights |
| ActionManager.SetDefaultActionAsWritten | horizon/utils/actionManager.py:121-147 | `_set_default_action` as written resets every frame's node lists and references, then raises at the first `setNodes` exactly when there is a frame |
| ActionManager.NewManagerAsWritten | horizon/utils/actionManager.py:60-97 | the constructor as written raises exactly when it is given a contact frame |
| ActionManager.StepAsWritten | horizon/utils/actionManager.py:222-257 | `_step` as written raises exactly when it activates; only the step's frame changes, and its z and xy references keep their old values |
| ActionManager.SetStepAsWritten | horizon/utils/actionManager.py:218-220 | `setStep` as written leaves the step pending and raises exactly when the step activates |
| ActionManager.StepAsWrittenStopsBeforeReferences | horizon/utils/actionManager.py:222-276 | the written step leaves the frame with the node lists the corrected step gives it, and the references it had before |
| ActionManager.StepAsWrittenKeepsSwingNodes | horizon/utils/actionManager.py:253-257 | when the written step raises, every in-horizon swing node is already in the z list, and the z reference is the one from before |
| ActionManager.StepAsWrittenExample | horizon/utils/actionManager.py:251-257 | on any horizon of at least four nodes, a step over nodes 2..4 of the default frame raises with node 3 in the z list and no z reference |
| ActionManager.ExecuteAsWrittenRaisesFirst | horizon/utils/actionManager.py:284-287 | as written, `execute` with any action pending raises in `_set_default_action`, before its loop |
| ActionManager.ExecuteSkipsAfterRemoval | horizon/utils/actionManager.py:289-297 | on two steps that both expire, the loop as written drops the first and leaves the second pending, unshifted |
| ActionManager.ExecuteDropsBothExpired | horizon/utils/actionManager.py:289-297 | on the same two steps, the intended loop drops both |
| ActionManager.RollSource | horizon/utils/actionManager.py:318 | `np.roll` moves into column `j` the column `(j - shift) mod c`, which is in range |
| ActionManager.ShiftColumns | horizon/utils/actionManager.py:318-321 | the rolled guess is well shaped and of the same size, and its last `|shift|` columns are the old last column. With shift -1, column `i` is old column `i + 1` |
| ActionManager.UpdateInitialState | horizon/utils/actionManager.py:313-330 | with shift -1, column `i` of both the state and the input guess is column `i + 1` of the solution and the last column is repeated. The new initial state is the first column of the state guess |
| RecedingTasks.AtLeast2d | horizon/rhc/receding_tasks.py:70 | `np.atleast_2d` turns a flat goal of length L into one row of L columns and leaves a matrix as is |
| RecedingTasks.TrajValue | horizon/rhc/receding_tasks.py:97-101 | the trajectory value exists exactly when numpy can broadcast the start against the goal's last axis. It is then well shaped with the broadcast row count |
| RecedingTasks.TrajValueEndpoints | horizon/rhc/receding_tasks.py:97-101 | for a flat goal as long as the start, the value is the start at τ = 0 and the goal at τ = 1 |
| RecedingTasks.AssignEach | horizon/rhc/receding_tasks.py:96-102 | the assignment loop raises exactly when there is a node and the value does not fit the parameter, and then writes nothing. Otherwise it writes each listed node's own value and nothing else |
| RecedingTasks.SetPolynomialTrajectory | horizon/rhc/receding_tasks.py:91-102 | `set_polynomial_trajectory` writes exactly the given nodes in `[0, nn - 1]`, with τ normalised by the action length and clearance 0.10 by default, and raises only on a value that does not fit |
| RecedingTasks.Activate | horizon/rhc/receding_tasks.py:62-89 | `activate` records the action on `[k_start, k_goal)`. It raises exactly when the goal width is neither 1 nor the action length, and then leaves the constraint nodes and target untouched. Otherwise the constraint covers the action nodes, and trajectory mode is on exactly when the width differs from the action length. The goal is assigned whole, or the swing values at the in-horizon nodes |
| RecedingTasks.ShiftActivation | horizon/rhc/receding_tasks.py:117-124 | both ends of the action move by `ks`, and the action nodes become exactly the shifted nodes at or after 0 |
| RecedingTasks.GoalTail | horizon/rhc/receding_tasks.py:130 | intended slice: the last `m` goal columns, one per node still ahead |
| RecedingTasks.GoalTailAsWritten | horizon/rhc/receding_tasks.py:130 | `goal[-m:]` as written keeps the last `m` rows of a matrix goal and all its columns |
| RecedingTasks.GoalTailAgreesOnFlat | horizon/rhc/receding_tasks.py:130 | for a flat goal the written and the intended slice coincide |
| RecedingTasks.RecedeWith | horizon/rhc/receding_tasks.py:104-136 | an inactive task is returned unchanged. A task whose `k_goal < 0` before shifting is cleared. Any other task is shifted, and only its target is rewritten |
| RecedingTasks.Recede | horizon/rhc/receding_tasks.py:104-114 | `recede` leaves an inactive task alone and clears a task whose goal node is behind |
| RecedingTasks.RecedeMovesWindow | horizon/rhc/receding_tasks.py:117-127 | an active task stays active and in the same mode. Its window moves by `ks`, keeping exactly the shifted nodes at or after 0, and the constraint follows the window |
| RecedingTasks.RecedeConstantTarget | horizon/rhc/receding_tasks.py:128-131 | in constant mode with a goal of the target's height, the receded task succeeds, and every node still ahead holds the goal columns for the remaining nodes |
| RecedingTasks.RecedeAsWrittenRaisesOnMatrixGoal | horizon/rhc/receding_tasks.py:128-131 | as written, a matrix goal whose height is the target's raises once fewer nodes remain than it has rows, where the intended version succeeds |
| RecedingTasks.RecedeRowsCounterexample | horizon/rhc/receding_tasks.py:130 | a concrete task receded by two nodes raises as written and succeeds as intended |
| RecedingTasks.RemoveNodes | horizon/rhc/receding_tasks.py:284-287 | the cost node list loses exactly the given nodes |
| RecedingTasks.BoundForce | horizon/rhc/receding_tasks.py:289-290 | the force bounds become zero on the pinned nodes and ±inf elsewhere, with symbols and guesses kept |
| RecedingTasks.BoundForceForgetsBounds | horizon/rhc/receding_tasks.py:289-290 | resetting the bounds forgets the old ones: two forces differing only in their bounds come out equal |
| RecedingTasks.FreeForce | horizon/rhc/receding_tasks.py:289-290 | after the reset every force bound is ±inf on every node, and symbols and guesses are kept |
| RecedingTasks.FreeForceIdempotent | horizon/rhc/receding_tasks.py:289-290 | freeing a freed force changes nothing |
| RecedingTasks.ResetConstraintsAndForce | horizon/rhc/receding_tasks.py:274-290 | `_reset_constraints_and_force` removes the nodes from the friction cost and frees the force, leaving the contact lists unchanged |
| RecedingTasks.AppendMissing | horizon/rhc/receding_tasks.py:207-215 | the list keeps its prefix and gains exactly the given nodes up to the cap that it lacked |
| RecedingTasks.AppendMissingIdempotent | horizon/rhc/receding_tasks.py:207-215 | adding the same nodes again adds nothing |
| RecedingTasks.ActiveOn | horizon/rhc/receding_tasks.py:203-215 | `active(nodes, 1)`: the contact list gains exactly the missing nodes up to `nn - 1`, the unilateral list those below `nn - 1`, prefixes kept. The force is free |
| RecedingTasks.PinForce | horizon/rhc/receding_tasks.py:201-230 | the force bounds are zero exactly on the given nodes in `[0, nn - 1)` and ±inf elsewhere |
| RecedingTasks.PinAfterFree | horizon/rhc/receding_tasks.py:198-230 | pinning after the reset is the same as pinning directly |
| RecedingTasks.ActiveOff | horizon/rhc/receding_tasks.py:217-230 | `active(nodes, 0)`: the nodes leave both lists (the contact list also loses everything past `nn - 1`), and the force is pinned on the nodes in `[0, nn - 1)` |
| RecedingTasks.Active | horizon/rhc/receding_tasks.py:193-241 | `active` dispatches on the flag: 1 switches on, 0 switches off, and any other value only resets |
| RecedingTasks.DeletePositions | horizon/rhc/receding_tasks.py:286 | `np.delete(s, pos)` keeps exactly the elements whose position, counted from the front or from the back, is not in `pos` |
| RecedingTasks.DeleteOnRangeIsRemove | horizon/rhc/receding_tasks.py:284-287 | on a node array `0..n` in order, deleting non-negative positions and removing those values agree |
| RecedingTasks.ResetAsWritten | horizon/rhc/receding_tasks.py:274-290 | the reset as written raises exactly when a given node is no position of the unilateral or the friction cost's array, leaving the contact as it was; otherwise the friction cost loses the positions and the force is freed |
| RecedingTasks.ActiveAsWritten | horizon/rhc/receding_tasks.py:193-198 | `active` as written raises exactly when its reset raises, unchanged; otherwise it is the corrected `active` with the positional deletion on the friction cost |
| RecedingTasks.ActiveAsWrittenRaises | horizon/rhc/receding_tasks.py:271 | with the friction cost's list empty, as it is created, `active` as written raises for every non-empty node list and every flag |
| RecedingTasks.ActiveAsWrittenWithoutNodes | horizon/rhc/receding_tasks.py:193-198 | with no nodes the written and the corrected `active` give the same contact |
| RecedingTasks.ActiveKeepsFrictionEmpty | horizon/rhc/receding_tasks.py:231-235 | the corrected `active` never gives the friction cost a node it did not have, so its list stays empty |
| RecedingTasks.ActiveOnIdempotent | horizon/rhc/receding_tasks.py:203-215 | switching the same nodes on twice changes nothing the second time |
| RecedingTasks.ActiveOffUndoesOnLists | horizon/rhc/receding_tasks.py:203-226 | switching nodes off after switching them on leaves the same node sets as switching them off alone |
| RecedingTasks.ActiveOffUndoesOnForce | horizon/rhc/receding_tasks.py:198-230 | ... and the same force bounds and friction nodes |
| RecedingTasks.RecedeList | horizon/rhc/receding_tasks.py:294-300 | a receded list holds exactly the nodes above 0 that are a shifted old node or the newly revealed last node |
| RecedingTasks.RecedeContact | horizon/rhc/receding_tasks.py:292-311 | `Contact.recede`: the contact list gains node `nn - 1` and the unilateral list node `nn - 2`, both shifted and cut at 0. The force takes the shifted bounds and keeps its nodes, symbols and guesses; the friction is untouched |

## Left out

- Symbols, CasADi expressions, kinematics, constraint and cost objects, and
  the solver. Symbols are opaque handles that only tell old from new. A constraint or cost is represented
  only by the node list the model keeps for it.
- The constraint objects themselves. `CartesianTask` and `Contact` define
  neither `setNodes` nor `setRef`, so the calls the scheduler makes on them
  raise (see "## Findings"). The corrected members record instead the
  scheduler's own node lists and reference arrays, which are what those
  calls would pass on.
- `misc.checkNodes` is not part of this model. It is specified as the active
  list filtered by membership in the request, in active order.
- `misc.checkValueEntry` is not part of this model. Values arrive already
  flat.
- RecedingTasks.RecedeContact: the force-bound shift by `misc.shift_array`
  (horizon/rhc/receding_tasks.py:307-311) is not computed, because
  `shift_array` is not part of this model. The shifted force is a
  parameter, required to differ from the old force only in its bounds.
- RecedingTasks.ResetConstraintsAndForce: two parts of the source are not
  modelled as written.
  - Costs lose the given nodes by value, whereas `np.delete` removes
    positions. Removal by value is the corrected reading. The positional
    deletion as written, which raises, is modelled separately by
    `RecedingTasks.ResetAsWritten` (see "## Findings").
  - The bound relaxation of the zero-velocity constraint is not modelled,
    because the constraint object is out of scope.
- The `_par_impl_dict` typo at horizon/variables.py:252. It is unreachable
  from construction, because the parameter map starts empty. The intended
  reprojection, which keeps values, is modelled by
  `Variables.ProjectParameter`.
- `CartesianTask.reset`/`setTarget`, `Contact` and `CartesianTask`
  construction, and `init_constraints`. These create constraint and cost
  objects.
- Floats are exact reals and unbounded; no IEEE rounding, NaN or overflow.
- `_update_initial_state` takes the solution matrices as parameters instead
  of reading them from a solver. Writing the guesses back into the problem is
  not modelled.
- `execute`'s own call of `_update_initial_state` is modelled separately by
  `ActionManager.UpdateInitialState`. `ActionManager.Execute` is the node
  bookkeeping that follows it.
- `SingleVariable.getImpl`/`_getVals`/`getImplDim`, the getters, `serialize`, `print` and
  logging.
- Variables.GetValsMatchesImplDim: states the length and the gathering order
  for a read on all nodes. The per-block content is stated by
  `Variables.GetValsBlocks`.
- Variables.Project: a new symbol is stated distinct from the old ones only
  for variables whose symbols all predate their batch counter
  (`SymbolsBefore`). `Variables.NewVariable` establishes this and
  reprojection and the setters keep it.
- Containers.ShrinkThenGrow: the new symbols are stated distinct under the
  same `SymbolsBefore` condition.
- Containers.SetVar: the entry stored is stated by kind and node list only.
  Its other fields are stated by `Variables.NewVariable` and
  `Variables.NewSingleVariable`.
- Variables.NewVariable: whether the nodes come as a Python list is a flag.
  The source sorts such a list in place, so the caller's list is sorted too,
  and the variable keeps that same list object. Neither the in-place sort
  nor the sharing is modelled; the variable holds its own node list.
- Crashes the source does not guard are preconditions, not error outcomes.
  These are a `KeyError` on an unknown frame or missing default foot height
  and an `IndexError` on a short start or goal (`ActionManager.CanStep`).
- The string keys `'n<k>'` of the record map and the `'+k'` offset keys are
  modelled as integer keys. Both encodings are injective.

## Findings

| source | as written | input that shows it | evidently intended | confidence | as-written member | corrected member |
|---|---|---|---|---|---|---|
| horizon/variables.py:1397 | `setNNodes` calls `_setNNodes` on every node-dependent `Parameter`, which defines no such method, so the call raises after the variables are already resized | a container holding one node-dependent parameter | parameters are reprojected like plain variables, keeping their nodes in `range(n)` and their values | not executed | Containers.SetNNodesAsWritten (Containers.SetNNodesRaisesOnParameter) | Containers.SetNNodes (Containers.SetNNodesIdempotent, Containers.SetNNodesAgreesWithoutParameters) |
| horizon/rhc/receding_tasks.py:130 | in constant mode `recede` slices the goal with `goal[-m:]`, which for a matrix goal (one column per action node) keeps rows, not columns | `RowsExample`: a 2-row goal over nodes 0..2, receded by -2 so one node remains; the 1-row slice fails the dimension check | keep the last `m` goal columns, one per node still ahead | not executed | RecedingTasks.RecedeAsWritten (RecedingTasks.RecedeRowsCounterexample, RecedingTasks.RecedeAsWrittenRaisesOnMatrixGoal) | RecedingTasks.Recede (RecedingTasks.RecedeConstantTarget) |
| horizon/utils/actionManager.py:289-297 | `execute` removes expired actions from `action_list` while iterating over it, so the element after each removed one is skipped: not shifted, not stepped, not checked | `SkipExample`: two steps of one frame that both expire this cycle | every pending action is shifted and re-applied, and every expired one is dropped. As written, this loop is reached only once the constraint objects have the methods that the next row finds missing | not executed | ActionManager.ExecuteAsWritten (ActionManager.ExecuteSkipsAfterRemoval) | ActionManager.Execute (ActionManager.ExecuteDropsBothExpired, ActionManager.ExecuteKeepsLive) |
| horizon/utils/actionManager.py:139 | `_set_default_action` and `_step` call `setNodes` and `setRef` (lines 139, 142, 147, 200, 264-265 and 275-276) on `CartesianTask` and `Contact` objects, and neither class defines them. `_set_default_action` raises after resetting the lists, so the constructor and every `execute` raise. An activating `_step` raises in `setContact` after updating the three node lists, before either reference | any scheduler with a contact frame; `StepAsWrittenExample` for a step | the constraint objects take the node lists and reference arrays the scheduler keeps | not executed | ActionManager.SetDefaultActionAsWritten (ActionManager.NewManagerAsWritten, ActionManager.ExecuteAsWrittenRaisesFirst), ActionManager.StepAsWritten (ActionManager.StepAsWrittenExample, ActionManager.StepAsWrittenStopsBeforeReferences) | ActionManager.SetDefaultAction, ActionManager.NewManager, ActionManager.StepAction, ActionManager.Execute |
| horizon/rhc/receding_tasks.py:286 | `_reset_constraints_and_force` hands the node list to `np.delete` as positions into each cost's current node array. The friction cost is created with no nodes (line 271), and the line that would give it some (235) is commented out, so every position is out of range. NumPy 1.19 and later raise IndexError there; earlier versions warn and ignore the positions | any contact as created and any non-empty `nodes`, with either flag (`ActiveAsWrittenRaises`) | each cost loses the given nodes by value | not executed; it also assumes the two barrier costs are `RecedingCost` objects, and horizon/functions.py is not part of this model | RecedingTasks.ResetAsWritten (RecedingTasks.ActiveAsWritten, RecedingTasks.ActiveAsWrittenRaises) | RecedingTasks.ResetConstraintsAndForce (RecedingTasks.Active, RecedingTasks.DeleteOnRangeIsRemove, RecedingTasks.ActiveAsWrittenWithoutNodes) |

=== FILE: action_manager.dfy ===
/** The action scheduler: per contact frame it keeps the contact, z-clearance
    and xy-target node lists and their reference arrays, turns steps into
    swing and stance nodes, recedes the pending steps by one node per cycle,
    and shifts the previous solution to warm-start the next one. */
module ActionManager {
  import opened Common
  import opened NodeLists
  import opened Polynomial

  /** A `Step`: frame `frame` swings over nodes `[kStart, kGoal)` from `start`
      to `goal` with a bump of height `clearance`. An empty `start` or `goal`
      stands for the frame's default position. */
  datatype Step = Step(frame: string, kStart: int, kGoal: int, start: seq<real>, goal: seq<real>, clearance: real)

  /** What the scheduler keeps for one frame: the contact, z and target node
      lists, and the z and xy reference arrays (None until a step sets them). */
  datatype FrameState = FrameState(
    contact: seq<int>,
    z: seq<int>,
    target: seq<int>,
    zRef: Option<seq<real>>,
    targetRef: Option<seq<real>>)

  /** `n` is `N`, the index of the last node; `footZ` the default foot height
      per frame; `actions` the pending steps in the order they were set. */
  datatype Manager = Manager(n: int, footZ: map<string, real>, frames: map<string, FrameState>, actions: seq<Step>)

  // ----- default action -----

  /** The default action for one frame: in contact on every node `0..N`,
      nothing else. */
  function DefaultFrame(n: int): (r: FrameState)
    ensures Sorted(r.contact) && NoDup(r.contact)
    ensures forall k :: k in r.contact <==> 0 <= k <= n
    ensures r.z == [] && r.target == [] && r.zRef.None? && r.targetRef.None?
  {
    FrameState(Range(0, n + 1), [], [], None, None)
  }

  /** `_set_default_action`: every frame back to the default action. */
  function SetDefaultAction(m: Manager): (r: Manager)
    ensures r.n == m.n && r.footZ == m.footZ && r.actions == m.actions
    ensures r.frames.Keys == m.frames.Keys
    ensures forall f :: f in r.frames ==> r.frames[f] == DefaultFrame(m.n)
  {
    m.(frames := map f | f in m.frames :: DefaultFrame(m.n))
  }

  /** The constructor: `N` from the node count, one empty record per contact
      frame (`init_constraints`), then the default action. */
  function NewManager(nNodes: int, footZ: map<string, real>, contacts: set<string>): (r: Manager)
    ensures r.n == nNodes - 1 && r.footZ == footZ && r.actions == []
    ensures r.frames.Keys == contacts
    ensures forall f :: f in r.frames ==> forall k :: k in r.frames[f].contact <==> 0 <= k < nNodes
    ensures forall f :: f in r.frames ==> r.frames[f].z == [] && r.frames[f].target == []
  {
    var empty := FrameState([], [], [], None, None);
    SetDefaultAction(Manager(nNodes - 1, footZ, map f | f in contacts :: empty, []))
  }

  // ----- helpers of `_step` -----

  /** `_append_params`: the first array as is, later ones appended flat. */
  function AppendParams(params: Option<seq<real>>, extra: seq<real>): (r: seq<real>)
    ensures params.None? ==> r == extra
    ensures params.Some? ==> params.value <= r && r[|params.value|..] == extra
    ensures |r| == (if params.None? then 0 else |params.value|) + |extra|
  {
    match params
    case None => extra
    case Some(p) => p + extra
  }

  /** Appending two arrays one after the other is appending them together:
      the reference does not depend on how the steps split their heights. */
  lemma AppendParamsTwice(params: Option<seq<real>>, a: seq<real>, b: seq<real>)
    ensures AppendParams(Some(AppendParams(params, a)), b) == AppendParams(params, a + b)
  {
    if params.Some? {
      assert params.value + a + b == params.value + (a + b);
    }
  }

  /** `compute_polynomial_trajectory` for one coordinate `dim`: one swing
      value per node, in node order. */
  function ComputePolynomialTrajectory(kStart: int, nodes: seq<int>, duration: int, start: seq<real>, goal: seq<real>, clearance: real, dim: nat): (r: seq<real>)
    requires duration != 0 && dim < |start| && dim < |goal|
    ensures |r| == |nodes|
    ensures forall i :: 0 <= i < |nodes| ==> r[i] == PolyPoint(nodes[i], kStart, duration, start[dim], goal[dim], clearance)
  {
    seq(|nodes|, i requires 0 <= i < |nodes| => PolyPoint(nodes[i], kStart, duration, start[dim], goal[dim], clearance))
  }

  /** The trajectory starts at `start[dim]` on node `kStart`, lands on
      `goal[dim]` on node `kStart + duration`, and in between stays between
      the straight line and the line raised by the clearance. */
  lemma TrajectoryShape(kStart: int, nodes: seq<int>, duration: int, start: seq<real>, goal: seq<real>, clearance: real, dim: nat)
    requires duration != 0 && dim < |start| && dim < |goal|
    ensures var r := ComputePolynomialTrajectory(kStart, nodes, duration, start, goal, clearance, dim);
      forall i :: 0 <= i < |nodes| ==> SwingValueFacts(nodes[i], kStart, duration, start[dim], goal[dim], clearance, r[i])
  {
    var r := ComputePolynomialTrajectory(kStart, nodes, duration, start, goal, clearance, dim);
    forall i | 0 <= i < |nodes|
      ensures SwingValueFacts(nodes[i], kStart, duration, start[dim], goal[dim], clearance, r[i])
    {
      SwingValue(nodes[i], kStart, duration, start[dim], goal[dim], clearance);
    }
  }

  /** What a swing value `v` at node `k` satisfies. */
  ghost predicate SwingValueFacts(k: int, kStart: int, duration: int, start: real, goal: real, clearance: real, v: real)
    requires duration != 0
  {
    && (k == kStart ==> v == start)
    && (k == kStart + duration ==> v == goal)
    && (duration > 0 && clearance >= 0.0 && kStart <= k <= kStart + duration ==>
          var line := Line(Tau(k, kStart, duration), start, goal);
          line <= v <= line + clearance)
  }

  lemma SwingValue(k: int, kStart: int, duration: int, start: real, goal: real, clearance: real)
    requires duration != 0
    ensures SwingValueFacts(k, kStart, duration, start, goal, clearance, PolyPoint(k, kStart, duration, start, goal, clearance))
  {
    if k == kStart || k == kStart + duration {
      PolyEndpoints(kStart, duration, start, goal, clearance);
    }
    if duration > 0 && clearance >= 0.0 && kStart <= k <= kStart + duration {
      TauInSwing(k, kStart, duration);
      PolyAtWithin(Tau(k, kStart, duration), start, goal, clearance);
    }
  }

  /** The nodes of `[kStart, kGoal)` inside the horizon `[0, N]`. */
  function SwingInHorizon(n: int, s: Step): (r: seq<int>)
    ensures forall k :: k in r <==> s.kStart <= k < s.kGoal && 0 <= k <= n
    ensures Sorted(r)
  {
    FilterSorted(Range(s.kStart, s.kGoal), k => 0 <= k <= n);
    Filter(Range(s.kStart, s.kGoal), k => 0 <= k <= n)
  }

  /** The swing range reaches into the horizon. */
  predicate Activates(n: int, s: Step) {
    s.kStart < s.kGoal && s.kStart <= n && s.kGoal > 0 && n >= 0
  }

  lemma ActivatesIffSwingInHorizon(n: int, s: Step)
    ensures Activates(n, s) <==> SwingInHorizon(n, s) != []
  {
    var r := SwingInHorizon(n, s);
    if Activates(n, s) {
      var k := if s.kStart < 0 then 0 else s.kStart;
      assert k in r;
    }
    if r != [] {
      var k := r[0];
      assert k in r;
    }
  }

  /** An empty position falls back to `[0, 0, default foot height]`. */
  function OrDefault(v: seq<real>, z: real): (r: seq<real>)
    ensures |v| > 0 ==> r == v
    ensures |v| == 0 ==> r == [0.0, 0.0, z]
  {
    if |v| == 0 then [0.0, 0.0, z] else v
  }

  /** What `_step` needs to run without a KeyError or IndexError: a known
      frame, and for a step that activates, a default height when a position
      is empty and a z coordinate in the positions given. */
  predicate CanStep(m: Manager, s: Step) {
    s.frame in m.frames && PositionsOk(m.n, m.footZ, s)
  }

  /** The part of `CanStep` about the positions of an activating step. */
  predicate PositionsOk(n: int, footZ: map<string, real>, s: Step) {
    Activates(n, s) ==>
      && ((|s.start| == 0 || |s.goal| == 0) ==> s.frame in footZ)
      && (|s.start| == 0 || |s.start| > 2)
      && (|s.goal| == 0 || |s.goal| > 2)
  }

  /** The xy target is set only for a goal node inside `(0, N]` and a
      non-empty goal. */
  predicate SetsTarget(n: int, s: Step) {
    n >= s.kGoal > 0 && |s.goal| > 0
  }

  /** The position a step uses: the one given, or the frame's default. */
  function Resolved(footZ: map<string, real>, frame: string, v: seq<real>): (r: seq<real>)
    requires |v| == 0 ==> frame in footZ
    ensures |v| > 0 ==> r == v
    ensures |v| == 0 ==> r == [0.0, 0.0, footZ[frame]]
  {
    if |v| == 0 then OrDefault(v, footZ[frame]) else v
  }

  /** The first two coordinates of the goal, the xy part of the target. */
  function GoalXY(s: Step): seq<real> {
    s.goal[..if |s.goal| < 2 then |s.goal| else 2]
  }

  /** The record `fs` with only the three node lists updated for step `s`,
      references kept. */
  function StepLists(n: int, fs: FrameState, s: Step): FrameState {
    var swing := Range(s.kStart, s.kGoal);
    fs.(contact := Filter(fs.contact, k => k !in swing),
        z := AppendNew(fs.z, SwingInHorizon(n, s)),
        target := AppendNew(fs.target, [s.kGoal]))
  }

  /** The record `fs` of the step's frame after an activating step, with
      `n` and `footZ` those of the scheduler. */
  function StepFrame(n: int, footZ: map<string, real>, fs: FrameState, s: Step): (r: FrameState)
    requires Activates(n, s)
    requires (|s.start| == 0 || |s.goal| == 0) ==> s.frame in footZ
    requires (|s.start| == 0 || |s.start| > 2) && (|s.goal| == 0 || |s.goal| > 2)
  {
    var lists := StepLists(n, fs, s);
    lists.(zRef := Some(AppendParams(fs.zRef, SwingHeights(n, footZ, s))),
           targetRef := if SetsTarget(n, s) then Some(AppendParams(fs.targetRef, GoalXY(s))) else fs.targetRef)
  }

  /** The z swing heights of an activating step, one per in-horizon node. */
  function SwingHeights(n: int, footZ: map<string, real>, s: Step): (r: seq<real>)
    requires Activates(n, s)
    requires (|s.start| == 0 || |s.goal| == 0) ==> s.frame in footZ
    requires (|s.start| == 0 || |s.start| > 2) && (|s.goal| == 0 || |s.goal| > 2)
  {
    ComputePolynomialTrajectory(s.kStart, SwingInHorizon(n, s), s.kGoal - s.kStart,
      Resolved(footZ, s.frame, s.start), Resolved(footZ, s.frame, s.goal), s.clearance, 2)
  }

  /** `_step`: a step whose swing misses the horizon changes nothing and
      reports False (the source returns 0). Otherwise only the step's frame
      changes; the lemmas below say how. */
  function StepAction(m: Manager, s: Step): (r: (Manager, bool))
    requires CanStep(m, s)
    ensures r.1 <==> SwingInHorizon(m.n, s) != []
    ensures !r.1 ==> r.0 == m
    ensures r.0.n == m.n && r.0.footZ == m.footZ && r.0.actions == m.actions
    ensures r.0.frames.Keys == m.frames.Keys
    ensures forall f :: f in m.frames && f != s.frame ==> r.0.frames[f] == m.frames[f]
  {
    ActivatesIffSwingInHorizon(m.n, s);
    if !Activates(m.n, s) then (m, false)
    else (m.(frames := m.frames[s.frame := StepFrame(m.n, m.footZ, m.frames[s.frame], s)]), true)
  }

  /** An activating step's frame: its contact nodes lose the swing range, the
      goal node joins the target nodes and the in-horizon swing nodes join
      the z nodes, each appended once and after the ones already there. */
  lemma StepNodeLists(m: Manager, s: Step)
    requires CanStep(m, s) && Activates(m.n, s)
    ensures var old_, new_ := m.frames[s.frame], StepAction(m, s).0.frames[s.frame];
      && (Sorted(old_.contact) ==> Sorted(new_.contact))
      && (forall k :: k in new_.contact <==> k in old_.contact && !(s.kStart <= k < s.kGoal))
      && old_.target <= new_.target
      && (forall k :: k in new_.target <==> k in old_.target || k == s.kGoal)
      && old_.z <= new_.z
      && (forall k :: k in new_.z <==> k in old_.z || (s.kStart <= k < s.kGoal && 0 <= k <= m.n))
  {
    var fs := m.frames[s.frame];
    var swing := Range(s.kStart, s.kGoal);
    assert StepAction(m, s).0.frames[s.frame] == StepFrame(m.n, m.footZ, m.frames[s.frame], s);
    if Sorted(fs.contact) { FilterSorted(fs.contact, k => k !in swing); }
  }

  /** An activating step's references: the z reference grows by one swing
      height per in-horizon swing node, and the xy reference by the goal's
      first two coordinates exactly when the target is set. */
  lemma StepReferences(m: Manager, s: Step)
    requires CanStep(m, s) && Activates(m.n, s)
    ensures var old_, new_ := m.frames[s.frame], StepAction(m, s).0.frames[s.frame];
      && new_.zRef.Some?
      && |new_.zRef.value| == (if old_.zRef.None? then 0 else |old_.zRef.value|) + |SwingInHorizon(m.n, s)|
      && (old_.zRef.Some? ==> old_.zRef.value <= new_.zRef.value)
      && (SetsTarget(m.n, s) ==> new_.targetRef == Some(AppendParams(old_.targetRef, GoalXY(s))))
      && (!SetsTarget(m.n, s) ==> new_.targetRef == old_.targetRef)
  {
    assert StepAction(m, s).0.frames[s.frame] == StepFrame(m.n, m.footZ, m.frames[s.frame], s);
  }

  /** An activating step appends its swing heights to the z reference of
      its frame, after the heights already there. */
  lemma StepAppendsHeights(m: Manager, s: Step)
    requires CanStep(m, s) && Activates(m.n, s)
    ensures StepAction(m, s).0.frames[s.frame].zRef == Some(AppendParams(m.frames[s.frame].zRef, SwingHeights(m.n, m.footZ, s)))
  {
    assert StepAction(m, s).0.frames[s.frame] == StepFrame(m.n, m.footZ, m.frames[s.frame], s);
  }

  /** The swing heights of a step: one per in-horizon swing node, the start
      height on the first swing node, and each between the straight line and
      the line raised by the clearance. The goal height belongs to node
      `kGoal`, which is not a swing node. */
  lemma SwingHeightsShape(n: int, footZ: map<string, real>, s: Step)
    requires Activates(n, s)
    requires (|s.start| == 0 || |s.goal| == 0) ==> s.frame in footZ
    requires (|s.start| == 0 || |s.start| > 2) && (|s.goal| == 0 || |s.goal| > 2)
    ensures var h, nodes := SwingHeights(n, footZ, s), SwingInHorizon(n, s);
      var start, goal := Resolved(footZ, s.frame, s.start), Resolved(footZ, s.frame, s.goal);
      && |h| == |nodes|
      && forall i :: 0 <= i < |nodes| ==>
           SwingValueFacts(nodes[i], s.kStart, s.kGoal - s.kStart, start[2], goal[2], s.clearance, h[i])
  {
    TrajectoryShape(s.kStart, SwingInHorizon(n, s), s.kGoal - s.kStart,
      Resolved(footZ, s.frame, s.start), Resolved(footZ, s.frame, s.goal), s.clearance, 2);
  }

  /** `setStep`: the step joins the pending actions, then is applied. */
  function SetStep(m: Manager, s: Step): (r: (Manager, bool))
    requires CanStep(m, s)
    ensures r.0.actions == m.actions + [s]
    ensures r.1 <==> Activates(m.n, s)
    ensures r.0.frames == StepAction(m, s).0.frames
  {
    ActivatesIffSwingInHorizon(m.n, s);
    StepAction(m.(actions := m.actions + [s]), s)
  }

  /** Stepping an action twice is stepping it once, for the node lists: the
      second pass removes nothing more from contact and appends nothing new. */
  lemma StepNodeListsIdempotent(m: Manager, s: Step)
    requires CanStep(m, s) && Activates(m.n, s)
    ensures var m1 := StepAction(m, s).0;
      var m2 := StepAction(m1, s).0;
      && m2.frames[s.frame].contact == m1.frames[s.frame].contact
      && m2.frames[s.frame].z == m1.frames[s.frame].z
      && m2.frames[s.frame].target == m1.frames[s.frame].target
  {
    ActivatesIffSwingInHorizon(m.n, s);
    var fs := m.frames[s.frame];
    var swing := Range(s.kStart, s.kGoal);
    var c1 := Filter(fs.contact, k => k !in swing);
    FilterKeepsAll(c1, k => k !in swing);
    AppendNewIdempotent(fs.z, SwingInHorizon(m.n, s));
    AppendNewIdempotent(fs.target, [s.kGoal]);
  }

  /** From the default action, one activating step splits `0..N` between
      contact and swing: a node in the horizon is in contact exactly when it
      is outside the swing range, and the z nodes are the swing nodes. */
  lemma StepFromDefaultPartitions(m: Manager, s: Step)
    requires CanStep(m, s) && Activates(m.n, s)
    requires m.frames[s.frame] == DefaultFrame(m.n)
    ensures var fs := StepAction(m, s).0.frames[s.frame];
      && (forall k :: 0 <= k <= m.n ==> (k in fs.contact <==> !(s.kStart <= k < s.kGoal)))
      && (forall k :: 0 <= k <= m.n ==> (k in fs.z <==> s.kStart <= k < s.kGoal))
      && (forall k :: k in fs.contact || k in fs.z ==> 0 <= k <= m.n)
      && fs.target == [s.kGoal]
  {
    StepNodeLists(m, s);
    assert StepAction(m, s).0.frames[s.frame] == StepFrame(m.n, m.footZ, m.frames[s.frame], s);
    assert AppendNew([], [s.kGoal]) == [s.kGoal];
  }

  // ----- execute -----

  /** One cycle later: the action moves back by one node. */
  function ShiftBack(s: Step): (r: Step)
    ensures r.kStart == s.kStart - 1 && r.kGoal == s.kGoal - 1
    ensures r.frame == s.frame && r.start == s.start && r.goal == s.goal && r.clearance == s.clearance
  {
    s.(kStart := s.kStart - 1, kGoal := s.kGoal - 1)
  }

  /** Node `k` of the action's range is at or after node 0. */
  predicate Live(s: Step, k: int) {
    s.kStart <= k < s.kGoal && k >= 0
  }

  /** No node of the action's range is at or after node 0. */
  predicate Expired(s: Step) {
    Filter(Range(s.kStart, s.kGoal), k => k >= 0) == []
  }

  lemma ExpiredIff(s: Step)
    ensures Expired(s) <==> !exists k :: Live(s, k)
  {
    var r := Filter(Range(s.kStart, s.kGoal), k => k >= 0);
    if r != [] {
      var k := r[0];
      assert k in r && Live(s, k);
    }
    if exists k :: Live(s, k) {
      var k :| Live(s, k);
      assert k in r;
    }
  }

  /** Every pending action, shifted back, can be stepped. */
  ghost predicate ActionsSteppable(m: Manager, from: nat) {
    forall j :: from <= j < |m.actions| ==> CanStep(m, ShiftBack(m.actions[j]))
  }

  ghost predicate SameFrameKeys(a: Manager, b: Manager) {
    a.n == b.n && a.footZ == b.footZ && a.frames.Keys == b.frames.Keys
  }

  lemma CanStepTransfers(a: Manager, b: Manager, s: Step)
    requires SameFrameKeys(a, b) && CanStep(a, s)
    ensures CanStep(b, s)
  {
  }

  /** The stepping half of the intended `execute` loop: each action in
      turn is shifted back and stepped. Stepping never reads the pending
      list, so the pruning is done apart, in `Execute`. */
  function StepAll(m: Manager, todo: seq<Step>): (r: Manager)
    requires forall j :: 0 <= j < |todo| ==> CanStep(m, ShiftBack(todo[j]))
    ensures SameFrameKeys(r, m) && r.actions == m.actions
    ensures forall f :: f in m.frames && (forall j :: 0 <= j < |todo| ==> todo[j].frame != f) ==>
      r.frames[f] == m.frames[f]
    decreases |todo|
  {
    if |todo| == 0 then m
    else
      var m1 := StepAction(m, ShiftBack(todo[0])).0;
      StepsTransfer(m, m1, todo);
      StepAll(m1, todo[1..])
  }

  lemma StepsTransfer(a: Manager, b: Manager, todo: seq<Step>)
    requires SameFrameKeys(a, b) && |todo| > 0
    requires forall j :: 0 <= j < |todo| ==> CanStep(a, ShiftBack(todo[j]))
    ensures forall j :: 0 <= j < |todo[1..]| ==> CanStep(b, ShiftBack(todo[1..][j]))
  {
    forall j | 0 <= j < |todo[1..]| ensures CanStep(b, ShiftBack(todo[1..][j])) {
      CanStepTransfers(a, b, ShiftBack(todo[j + 1]));
    }
  }

  /** Every action shifted back by one node. */
  function Shifted(todo: seq<Step>): (r: seq<Step>)
    ensures |r| == |todo| && forall i :: 0 <= i < |todo| ==> r[i] == ShiftBack(todo[i])
  {
    seq(|todo|, i requires 0 <= i < |todo| => ShiftBack(todo[i]))
  }

  /** `execute` without the warm start: every frame back to the default
      action, then the pending actions shifted, re-applied and pruned. */
  function Execute(m: Manager): (r: Manager)
    requires ActionsSteppable(m, 0)
    ensures SameFrameKeys(r, m)
    ensures r.actions == Filter(Shifted(m.actions), a => !Expired(a))
  {
    var d := SetDefaultAction(m);
    forall j | 0 <= j < |m.actions| ensures CanStep(d, ShiftBack(m.actions[j])) {
      CanStepTransfers(m, d, ShiftBack(m.actions[j]));
    }
    StepAll(d, m.actions).(actions := Filter(Shifted(m.actions), a => !Expired(a)))
  }

  /** After `execute` every pending action still has a node at or after 0,
      and every action that had one after the shift is still pending. */
  lemma ExecuteKeepsLive(m: Manager)
    requires ActionsSteppable(m, 0)
    ensures forall a :: a in Execute(m).actions ==> exists k :: Live(a, k)
    ensures forall i :: 0 <= i < |m.actions| && (exists k :: Live(ShiftBack(m.actions[i]), k)) ==>
      ShiftBack(m.actions[i]) in Execute(m).actions
  {
    var r := Execute(m).actions;
    var sh := Shifted(m.actions);
    forall a | a in r ensures exists k :: Live(a, k) {
      ExpiredIff(a);
    }
    forall i | 0 <= i < |m.actions| && (exists k :: Live(ShiftBack(m.actions[i]), k))
      ensures ShiftBack(m.actions[i]) in r
    {
      var a := ShiftBack(m.actions[i]);
      ExpiredIff(a);
      assert a == sh[i] && a in sh;
    }
  }

  /** The pending actions of frame `f`, in order. */
  function OfFrame(todo: seq<Step>, f: string): (r: seq<Step>)
    ensures forall a :: a in r <==> a in todo && a.frame == f
  {
    if |todo| == 0 then []
    else (if todo[0].frame == f then [todo[0]] else []) + OfFrame(todo[1..], f)
  }

  /** A reference for one frame, independent of the scheduler: the record
      `fs` after each action of `todo`, shifted back by one node, is applied
      to it in turn, an action whose swing misses the horizon changing
      nothing. */
  function FrameRun(n: int, footZ: map<string, real>, fs: FrameState, todo: seq<Step>): FrameState
    requires forall a :: a in todo ==> PositionsOk(n, footZ, ShiftBack(a))
    decreases |todo|
  {
    if |todo| == 0 then fs
    else
      var a := ShiftBack(todo[0]);
      assert todo[0] in todo && PositionsOk(n, footZ, a);
      var next := if Activates(n, a) then StepFrame(n, footZ, fs, a) else fs;
      assert forall b :: b in todo[1..] ==> b in todo;
      FrameRun(n, footZ, next, todo[1..])
  }

  /** Stepping a list of actions treats every frame on its own: frame `f`
      ends as `FrameRun` of its record over the actions of `f` alone. */
  lemma {:induction false} StepAllByFrame(m: Manager, todo: seq<Step>, f: string)
    requires forall j :: 0 <= j < |todo| ==> CanStep(m, ShiftBack(todo[j]))
    requires f in m.frames
    ensures forall a :: a in OfFrame(todo, f) ==> PositionsOk(m.n, m.footZ, ShiftBack(a))
    ensures StepAll(m, todo).frames[f] == FrameRun(m.n, m.footZ, m.frames[f], OfFrame(todo, f))
    decreases |todo|
  {
    OwnActionsOk(m, todo, f);
    if |todo| > 0 {
      var m1 := StepAction(m, ShiftBack(todo[0])).0;
      StepsTransfer(m, m1, todo);
      StepAllByFrame(m1, todo[1..], f);
      FrameRunCons(m, todo, f);
    }
  }

  /** The actions of frame `f` can all be stepped when all of `todo` can. */
  lemma OwnActionsOk(m: Manager, todo: seq<Step>, f: string)
    requires forall j :: 0 <= j < |todo| ==> CanStep(m, ShiftBack(todo[j]))
    ensures forall a :: a in OfFrame(todo, f) ==> PositionsOk(m.n, m.footZ, ShiftBack(a))
  {
    forall a | a in OfFrame(todo, f) ensures PositionsOk(m.n, m.footZ, ShiftBack(a)) {
      var j :| 0 <= j < |todo| && todo[j] == a;
      assert CanStep(m, ShiftBack(todo[j]));
    }
  }

  /** One action of `todo` taken: frame `f` of the scheduler and the
      reference advance alike. */
  lemma FrameRunCons(m: Manager, todo: seq<Step>, f: string)
    requires |todo| > 0 && forall j :: 0 <= j < |todo| ==> CanStep(m, ShiftBack(todo[j]))
    requires f in m.frames
    requires forall a :: a in OfFrame(todo, f) ==> PositionsOk(m.n, m.footZ, ShiftBack(a))
    ensures var m1 := StepAction(m, ShiftBack(todo[0])).0;
      && (forall a :: a in OfFrame(todo[1..], f) ==> PositionsOk(m.n, m.footZ, ShiftBack(a)))
      && FrameRun(m.n, m.footZ, m.frames[f], OfFrame(todo, f)) ==
         FrameRun(m.n, m.footZ, m1.frames[f], OfFrame(todo[1..], f))
  {
    var a := ShiftBack(todo[0]);
    var m1 := StepAction(m, a).0;
    var own := OfFrame(todo, f);
    if todo[0].frame == f {
      assert CanStep(m, ShiftBack(todo[0]));
      assert m1.frames[f] == if Activates(m.n, a) then StepFrame(m.n, m.footZ, m.frames[f], a) else m.frames[f];
      assert own == [todo[0]] + OfFrame(todo[1..], f);
      assert own[1..] == OfFrame(todo[1..], f);
    } else {
      assert own == OfFrame(todo[1..], f);
    }
  }

  /** After `execute` every frame holds what its own pending actions, each
      shifted back by one node, make of the default action: frames do not
      influence each other. */
  lemma ExecuteByFrame(m: Manager, f: string)
    requires ActionsSteppable(m, 0) && f in m.frames
    ensures forall a :: a in OfFrame(m.actions, f) ==> PositionsOk(m.n, m.footZ, ShiftBack(a))
    ensures Execute(m).frames[f] == FrameRun(m.n, m.footZ, DefaultFrame(m.n), OfFrame(m.actions, f))
  {
    var d := SetDefaultAction(m);
    forall j | 0 <= j < |m.actions| ensures CanStep(d, ShiftBack(m.actions[j])) {
      CanStepTransfers(m, d, ShiftBack(m.actions[j]));
    }
    StepAllByFrame(d, m.actions, f);
  }

  /** After `execute`, a frame that no pending action names is back at the
      default action. */
  lemma ExecuteResetsIdleFrames(m: Manager)
    requires ActionsSteppable(m, 0)
    ensures forall f :: f in m.frames && (forall j :: 0 <= j < |m.actions| ==> m.actions[j].frame != f) ==>
      Execute(m).frames[f] == DefaultFrame(m.n)
  {
    var d := SetDefaultAction(m);
    forall j | 0 <= j < |m.actions| ensures CanStep(d, ShiftBack(m.actions[j])) {
      CanStepTransfers(m, d, ShiftBack(m.actions[j]));
    }
    assert Execute(m).frames == StepAll(d, m.actions).frames;
  }

  /** With one pending action, `execute` leaves its frame as that action,
      shifted back by one node, makes of the default frame (the default
      itself when the shifted swing misses the horizon), and every other
      frame at the default. */
  lemma ExecuteSingleAction(m: Manager, s: Step)
    requires m.actions == [s] && ActionsSteppable(m, 0)
    ensures var a := ShiftBack(s);
      Execute(m).frames[s.frame] ==
        if Activates(m.n, a) then StepFrame(m.n, m.footZ, DefaultFrame(m.n), a) else DefaultFrame(m.n)
    ensures forall f :: f in m.frames && f != s.frame ==> Execute(m).frames[f] == DefaultFrame(m.n)
  {
    var d := SetDefaultAction(m);
    var a := ShiftBack(s);
    assert CanStep(m, ShiftBack(m.actions[0]));
    CanStepTransfers(m, d, a);
    var d1 := StepAction(d, a).0;
    assert StepAll(d, m.actions) == StepAll(d1, []);
    ExecuteResetsIdleFrames(m);
  }

  /** With nothing pending, `execute` leaves every frame at the default. */
  lemma ExecuteResets(m: Manager)
    requires m.actions == []
    ensures Execute(m).frames == SetDefaultAction(m).frames
    ensures forall f :: f in Execute(m).frames ==> Execute(m).frames[f] == DefaultFrame(m.n)
  {
  }

  /** The loop of `execute` as written: it removes from `action_list` while
      iterating over it, so after a removal the iterator's index already
      points one past the element that moved into the freed slot, which is
      neither shifted nor stepped nor checked, and stays pending. */
  function RunAsWritten(m: Manager, i: nat): (r: Manager)
    requires i <= |m.actions| && ActionsSteppable(m, i)
    ensures SameFrameKeys(r, m)
    decreases |m.actions| - i
  {
    if i == |m.actions| then m
    else
      var a := ShiftBack(m.actions[i]);
      var m1 := StepAction(m, a).0;
      if Expired(a) then
        var m2 := m1.(actions := m.actions[..i] + m.actions[i + 1..]);
        if i + 1 <= |m2.actions| then
          forall j | i + 1 <= j < |m2.actions| ensures CanStep(m2, ShiftBack(m2.actions[j])) {
            CanStepTransfers(m, m2, ShiftBack(m.actions[j + 1]));
          }
          RunAsWritten(m2, i + 1)
        else m2
      else
        var m2 := m1.(actions := m.actions[i := a]);
        forall j | i + 1 <= j < |m2.actions| ensures CanStep(m2, ShiftBack(m2.actions[j])) {
          CanStepTransfers(m, m2, ShiftBack(m.actions[j]));
        }
        RunAsWritten(m2, i + 1)
  }

  /** The loop of `execute` as written, without the warm start, on
      constraint objects that accept `setNodes` and `setRef`. As written,
      `execute` does not reach it (`ExecuteAsWrittenRaisesFirst`). */
  function ExecuteAsWritten(m: Manager): (r: Manager)
    requires ActionsSteppable(m, 0)
    ensures SameFrameKeys(r, m)
  {
    var d := SetDefaultAction(m);
    forall j | 0 <= j < |d.actions| ensures CanStep(d, ShiftBack(d.actions[j])) {
      CanStepTransfers(m, d, ShiftBack(m.actions[j]));
    }
    RunAsWritten(d, 0)
  }

  /** Two steps of frame "lf" that both leave the horizon this cycle. */
  function SkipExample(): (m: Manager)
    ensures ActionsSteppable(m, 0)
  {
    var m := Manager(10, map["lf" := 0.0], map["lf" := DefaultFrame(10)],
      [Step("lf", -2, 1, [], [], 0.1), Step("lf", -4, 1, [], [], 0.1)]);
    assert forall j :: 0 <= j < |m.actions| ==> m.actions[j].frame == "lf";
    m
  }

  /** The written loop drops the first step of the example and never looks
      at the second, which stays pending unshifted. */
  lemma ExecuteSkipsAfterRemoval()
    ensures ExecuteAsWritten(SkipExample()).actions == [SkipExample().actions[1]]
  {
    var m := SkipExample();
    var d := SetDefaultAction(m);
    var a := ShiftBack(m.actions[0]);
    assert !Live(a, -1) && !Live(a, 0);
    ExpiredIff(a);
    ActivatesIffSwingInHorizon(d.n, a);
    assert StepAction(d, a).0 == d;
    var m2 := d.(actions := [m.actions[1]]);
    assert d.actions[..0] + d.actions[1..] == [m.actions[1]];
    assert RunAsWritten(m2, 1) == m2;
  }

  /** The intended loop drops both steps of the example. */
  lemma ExecuteDropsBothExpired()
    ensures Execute(SkipExample()).actions == []
  {
    var m := SkipExample();
    var sh := Shifted(m.actions);
    forall a | a in sh ensures Expired(a) {
      ExpiredIff(a);
    }
    FilterKeepsNone(sh, a => !Expired(a));
  }

  // ----- the calls into the constraint objects, as written -----

  /** `_set_default_action` as written: once the node lists and references
      are reset, `z_constr.setNodes` raises AttributeError, because neither
      `CartesianTask` nor `Contact` defines `setNodes`. Only a scheduler
      without frames gets past it. */
  function SetDefaultActionAsWritten(m: Manager): (r: Outcome<Manager>)
    ensures r.Raised? <==> m.frames.Keys != {}
    ensures r.Raised? ==> r.error == MissingMethod
    ensures r.State().frames.Keys == m.frames.Keys && r.State().actions == m.actions
    ensures forall f :: f in r.State().frames ==> r.State().frames[f] == DefaultFrame(m.n)
  {
    var d := SetDefaultAction(m);
    if m.frames.Keys == {} then Done(d) else Raised(MissingMethod, d)
  }

  /** The constructor as written ends in `_set_default_action`, so it raises
      for every non-empty set of contact frames. */
  function NewManagerAsWritten(nNodes: int, footZ: map<string, real>, contacts: set<string>): (r: Outcome<Manager>)
    ensures r.Raised? <==> contacts != {}
    ensures r.Raised? ==> r.error == MissingMethod
  {
    var empty := FrameState([], [], [], None, None);
    var m := Manager(nNodes - 1, footZ, map f | f in contacts :: empty, []);
    assert m.frames.Keys == contacts;
    SetDefaultActionAsWritten(m)
  }

  /** `_step` as written: a step whose swing misses the horizon changes
      nothing; an activating one updates the three node lists of its frame
      and then raises in `setContact` (`Contact` defines no `setNodes`),
      before either reference is touched. */
  function StepAsWritten(m: Manager, s: Step): (r: Outcome<Manager>)
    requires s.frame in m.frames
    ensures r.Raised? <==> Activates(m.n, s)
    ensures r.Raised? ==> r.error == MissingMethod
    ensures r.Done? ==> r.value == m
    ensures r.State().n == m.n && r.State().footZ == m.footZ && r.State().actions == m.actions
    ensures r.State().frames.Keys == m.frames.Keys
    ensures forall f :: f in m.frames && f != s.frame ==> r.State().frames[f] == m.frames[f]
    ensures r.State().frames[s.frame].zRef == m.frames[s.frame].zRef
    ensures r.State().frames[s.frame].targetRef == m.frames[s.frame].targetRef
  {
    if !Activates(m.n, s) then Done(m)
    else Raised(MissingMethod, m.(frames := m.frames[s.frame := StepLists(m.n, m.frames[s.frame], s)]))
  }

  /** `setStep` as written: the step is pending even when `_step` raises. */
  function SetStepAsWritten(m: Manager, s: Step): (r: Outcome<Manager>)
    requires s.frame in m.frames
    ensures r.Raised? <==> Activates(m.n, s)
    ensures r.State().actions == m.actions + [s]
  {
    StepAsWritten(m.(actions := m.actions + [s]), s)
  }

  /** The written step stops where the corrected one goes on to the
      references: its frame has the corrected node lists and the old
      references. */
  lemma StepAsWrittenStopsBeforeReferences(m: Manager, s: Step)
    requires CanStep(m, s) && Activates(m.n, s)
    ensures var fs, full := StepAsWritten(m, s).State().frames[s.frame], StepAction(m, s).0.frames[s.frame];
      fs == full.(zRef := m.frames[s.frame].zRef, targetRef := m.frames[s.frame].targetRef)
  {
    assert StepAction(m, s).0.frames[s.frame] == StepFrame(m.n, m.footZ, m.frames[s.frame], s);
  }

  /** The written step that raises has already put every in-horizon swing
      node in the z list, and still holds the z reference from before. */
  lemma StepAsWrittenKeepsSwingNodes(m: Manager, s: Step)
    requires s.frame in m.frames && Activates(m.n, s)
    ensures var fs := StepAsWritten(m, s).State().frames[s.frame];
      (forall k :: k in SwingInHorizon(m.n, s) ==> k in fs.z) && fs.zRef == m.frames[s.frame].zRef
  {
    assert StepAsWritten(m, s).State().frames[s.frame] == StepLists(m.n, m.frames[s.frame], s);
  }

  /** On any horizon of at least 4 nodes, a step over nodes 2..4 of the
      default frame raises as written, leaving swing node 3 in the z list
      but no z reference. */
  lemma StepAsWrittenExample(n: int)
    requires n >= 3
    ensures var m := Manager(n, map["lf" := 0.0], map["lf" := DefaultFrame(n)], []);
      var r := StepAsWritten(m, Step("lf", 2, 5, [], [], 0.1));
      r.Raised? && 3 in r.State().frames["lf"].z && r.State().frames["lf"].zRef.None?
  {
    var m := Manager(n, map["lf" := 0.0], map["lf" := DefaultFrame(n)], []);
    var s := Step("lf", 2, 5, [], [], 0.1);
    StepAsWrittenKeepsSwingNodes(m, s);
    assert 3 in SwingInHorizon(m.n, s);
  }

  /** As written, `execute` with any action pending raises in
      `_set_default_action`, before its loop: the action's frame is a frame
      of the scheduler. */
  lemma ExecuteAsWrittenRaisesFirst(m: Manager)
    requires ActionsSteppable(m, 0) && m.actions != []
    ensures SetDefaultActionAsWritten(m).Raised?
  {
    assert CanStep(m, ShiftBack(m.actions[0]));
    assert m.actions[0].frame in m.frames.Keys;
  }

  // ----- warm start -----

  function Abs(x: int): nat {
    if x < 0 then -x else x
  }

  /** The old column that `np.roll(·, shift, axis=1)` moves into column `j`
      of `c` columns: `(j - shift) mod c`, the one index in `[0, c)` that
      differs from `j - shift` by a multiple of `c`. */
  function RollSource(j: int, shift: int, c: int): (r: int)
    requires 0 <= j < c && Abs(shift) <= c
    ensures 0 <= r < c
    ensures r == j - shift || r == j - shift + c || r == j - shift - c
  {
    var t := j - shift;
    if t < 0 then t + c else if t >= c then t - c else t
  }

  /** `np.roll(a, shift, axis=1)` followed by overwriting the last `|shift|`
      columns with the old last column. */
  method ShiftColumns(a: Matrix, shift: int) returns (r: Matrix)
    requires WellShaped(a) && Abs(shift) <= |a.cols|
    ensures WellShaped(r) && r.rows == a.rows && |r.cols| == |a.cols|
    ensures forall j :: 0 <= j < |a.cols| - Abs(shift) ==> r.cols[j] == a.cols[RollSource(j, shift, |a.cols|)]
    ensures forall j :: |a.cols| - Abs(shift) <= j < |a.cols| ==> r.cols[j] == a.cols[|a.cols| - 1]
    ensures shift == -1 ==> forall j :: 0 <= j < |a.cols| - 1 ==> r.cols[j] == a.cols[j + 1]
  {
    var c := |a.cols|;
    var cols: seq<seq<real>> := [];
    var j := 0;
    while j < c
      invariant 0 <= j <= c && |cols| == j
      invariant forall i :: 0 <= i < j ==> cols[i] == a.cols[RollSource(i, shift, c)]
    {
      cols := cols + [a.cols[RollSource(j, shift, c)]];
      j := j + 1;
    }
    var i := 0;
    while i < Abs(shift)
      invariant 0 <= i <= Abs(shift) && |cols| == c
      invariant forall k :: 0 <= k < c - i ==> cols[k] == a.cols[RollSource(k, shift, c)]
      invariant forall k :: c - i <= k < c ==> cols[k] == a.cols[c - 1]
    {
      cols := cols[c - 1 - i := a.cols[c - 1]];
      i := i + 1;
    }
    forall k | 0 <= k < c ensures |cols[k]| == a.rows {
      if k < c - Abs(shift) {
        assert cols[k] == a.cols[RollSource(k, shift, c)];
      }
    }
    r := Matrix(a.rows, cols);
  }

  /** `_update_initial_state`: the previous state and input solutions shifted
      by `shift` columns become the new initial guesses, and the first column
      of the state guess the new initial state. With `shift = -1`, as
      `execute` calls it, column `i` of each guess is column `i + 1` of the
      solution and the last column is repeated. */
  method UpdateInitialState(x: Matrix, u: Matrix, shift: int) returns (xGuess: Matrix, uGuess: Matrix, x0: seq<real>)
    requires WellShaped(x) && WellShaped(u)
    requires 0 < |x.cols| && Abs(shift) <= |x.cols| && Abs(shift) <= |u.cols|
    ensures WellShaped(xGuess) && xGuess.rows == x.rows && |xGuess.cols| == |x.cols|
    ensures WellShaped(uGuess) && uGuess.rows == u.rows && |uGuess.cols| == |u.cols|
    ensures x0 == xGuess.cols[0]
    ensures shift == -1 ==> forall j :: 0 <= j < |x.cols| - 1 ==> xGuess.cols[j] == x.cols[j + 1]
    ensures shift == -1 ==> xGuess.cols[|x.cols| - 1] == x.cols[|x.cols| - 1]
    ensures shift == -1 ==> forall j :: 0 <= j < |u.cols| - 1 ==> uGuess.cols[j] == u.cols[j + 1]
    ensures shift == -1 ==> uGuess.cols[|u.cols| - 1] == u.cols[|u.cols| - 1]
  {
    xGuess := ShiftColumns(x, shift);
    uGuess := ShiftColumns(u, shift);
    x0 := xGuess.cols[0];
  }
}

=== FILE: aggregate.dfy ===
/** An aggregate: variables laid out one after another in a single flat
    vector, in the order they were added. */
module Aggregates {
  import opened Common
  import opened Variables

  type Aggregate = seq<Variable>

  ghost predicate ValidAggregate(agg: Aggregate) {
    forall i :: 0 <= i < |agg| ==> Valid(agg[i])
  }

  /** Total length of the flat vector: the sum of the member dimensions. */
  function SumDims(agg: Aggregate): nat {
    if |agg| == 0 then 0 else agg[0].dim + SumDims(agg[1..])
  }

  /** Where member `i` starts in the flat vector. */
  function Offset(agg: Aggregate, i: nat): nat
    requires i <= |agg|
  {
    SumDims(agg[..i])
  }

  lemma {:induction false} OffsetStep(agg: Aggregate, i: nat)
    requires 0 < i <= |agg|
    ensures Offset(agg, i) == agg[0].dim + Offset(agg[1..], i - 1)
  {
    assert agg[..i][1..] == agg[1..][..i - 1];
  }

  /** Member blocks are consecutive: the next one starts where this one ends. */
  lemma {:induction false} OffsetNext(agg: Aggregate, i: nat)
    requires i < |agg|
    ensures Offset(agg, i + 1) == Offset(agg, i) + agg[i].dim
    decreases i
  {
    OffsetStep(agg, i + 1);
    if i > 0 {
      OffsetStep(agg, i);
      OffsetNext(agg[1..], i - 1);
    }
  }

  /** The last block ends where the flat vector ends. */
  lemma OffsetEnd(agg: Aggregate)
    ensures Offset(agg, |agg|) == SumDims(agg)
  {
    assert agg[..|agg|] == agg;
  }

  /** `names.index(name)`: the position of the first member called `name`,
      None where it raises because no member has it. */
  function NameIndex(agg: Aggregate, name: string): (r: Option<nat>)
    ensures r.None? <==> forall i :: 0 <= i < |agg| ==> agg[i].name != name
    ensures r.Some? ==> r.value < |agg| && agg[r.value].name == name
    ensures r.Some? ==> forall j :: 0 <= j < r.value ==> agg[j].name != name
  {
    if |agg| == 0 then None
    else if agg[0].name == name then Some(0)
    else
      match NameIndex(agg[1..], name)
      case None => None
      case Some(k) => Some(k + 1)
  }

  /** `getVarIndex`: the offset and dimension of the first member called
      `name`; None where `names.index` raises because no member has it. */
  function GetVarIndex(agg: Aggregate, name: string): (r: Option<(nat, nat)>)
    ensures r.None? <==> forall i :: 0 <= i < |agg| ==> agg[i].name != name
    ensures r.Some? ==> exists i :: (0 <= i < |agg| && agg[i].name == name
      && (forall j :: 0 <= j < i ==> agg[j].name != name)
      && r.value == (Offset(agg, i), agg[i].dim))
  {
    match NameIndex(agg, name)
    case None => None
    case Some(i) => Some((Offset(agg, i), agg[i].dim))
  }

  /** `vals[lo:hi]` with Python's clamping at the end of the list. */
  function PySlice<T>(vals: seq<T>, lo: nat, hi: nat): (r: seq<T>)
    requires lo <= hi
    ensures |r| == if hi <= |vals| then hi - lo else if lo <= |vals| then |vals| - lo else 0
    ensures hi <= |vals| ==> r == vals[lo..hi]
  {
    var a := if lo <= |vals| then lo else |vals|;
    var b := if hi <= |vals| then hi else |vals|;
    vals[a..b]
  }

  /** Member `v` once the setter loop is done, given that its block starts at
      flat position `lo`: written when the whole block is present, untouched
      otherwise. */
  function MemberAfter(v: Variable, f: Field, vals: Vec, nodes: Option<seq<int>>, lo: nat): (r: Variable)
    requires Valid(v)
    ensures Valid(r) && r.name == v.name && r.dim == v.dim && r.nodes == v.nodes
  {
    if lo + v.dim <= |vals| then SetField(v, f, vals[lo .. lo + v.dim], nodes).value else v
  }

  lemma {:induction false} OffsetMonotone(agg: Aggregate, i: nat, j: nat)
    requires i <= j <= |agg|
    ensures Offset(agg, i) <= Offset(agg, j)
    decreases j - i
  {
    if i < j {
      OffsetNext(agg, i);
      OffsetMonotone(agg, i + 1, j);
    }
  }

  /** Once a block runs past the end of `vals`, so does every later block. */
  lemma PastTheEnd(agg: Aggregate, f: Field, vals: Vec, nodes: Option<seq<int>>, k: nat)
    requires ValidAggregate(agg) && k < |agg|
    requires Offset(agg, k) + agg[k].dim > |vals|
    ensures forall j :: k <= j < |agg| ==> MemberAfter(agg[j], f, vals, nodes, Offset(agg, j)) == agg[j]
  {
    forall j | k <= j < |agg|
      ensures MemberAfter(agg[j], f, vals, nodes, Offset(agg, j)) == agg[j]
    {
      if j > k {
        OffsetNext(agg, k);
        OffsetMonotone(agg, k + 1, j);
      }
    }
  }

  /** One turn of the setter loop: member `k` receives `vals[idx:idx+dim]`,
      `idx` being where its block starts. */
  function WriteBlock(agg: Aggregate, f: Field, vals: Vec, nodes: Option<seq<int>>, k: nat): (r: Outcome<Variable>)
    requires ValidAggregate(agg) && k < |agg| && Offset(agg, k) <= |vals|
    ensures Offset(agg, k + 1) == Offset(agg, k) + agg[k].dim
    ensures r.Raised? <==> Offset(agg, k + 1) > |vals|
    ensures r.Raised? ==> r.error == WrongDimension
  {
    OffsetNext(agg, k);
    var idx := Offset(agg, k);
    SetField(agg[k], f, PySlice(vals, idx, idx + agg[k].dim), nodes)
  }

  /** A turn that does not raise leaves the member as `MemberAfter` says. */
  lemma WriteBlockWrites(agg: Aggregate, f: Field, vals: Vec, nodes: Option<seq<int>>, k: nat)
    requires ValidAggregate(agg) && k < |agg| && Offset(agg, k) <= |vals|
    ensures var r := WriteBlock(agg, f, vals, nodes, k);
      r.Done? ==> r.value == MemberAfter(agg[k], f, vals, nodes, Offset(agg, k))
  {
    var idx := Offset(agg, k);
    var hi := idx + agg[k].dim;
    if hi <= |vals| {
      assert PySlice(vals, idx, hi) == vals[idx..hi];
    }
  }

  /** `Aggregate.setLowerBounds` (f = Lb) and `setUpperBounds` (f = Ub): each
      member in turn receives the next `dim` entries of `vals`. The first member
      whose slice comes out short raises; the members before it stay written
      and the ones after it are untouched. */
  method AggSetField(agg: Aggregate, f: Field, vals: Vec, nodes: Option<seq<int>>) returns (r: Outcome<Aggregate>)
    requires ValidAggregate(agg)
    ensures |r.State()| == |agg| && ValidAggregate(r.State())
    ensures r.Raised? <==> |vals| < SumDims(agg)
    ensures r.Raised? ==> r.error == WrongDimension
    ensures forall i :: 0 <= i < |agg| ==>
      r.State()[i] == MemberAfter(agg[i], f, vals, nodes, Offset(agg, i))
  {
    var out := agg;
    var k := 0;
    assert agg[..0] == [];
    while k < |agg|
      invariant 0 <= k <= |agg| && |out| == |agg|
      invariant Offset(agg, k) <= |vals|
      invariant ValidAggregate(out)
      invariant forall j :: 0 <= j < k ==> out[j] == MemberAfter(agg[j], f, vals, nodes, Offset(agg, j))
      invariant forall j :: k <= j < |agg| ==> out[j] == agg[j]
    {
      var w := WriteBlock(agg, f, vals, nodes, k);
      if w.Raised? {
        PastTheEnd(agg, f, vals, nodes, k);
        OffsetMonotone(agg, k + 1, |agg|);
        OffsetEnd(agg);
        return Raised(w.error, out);
      }
      WriteBlockWrites(agg, f, vals, nodes, k);
      out := out[k := w.value];
      k := k + 1;
    }
    OffsetEnd(agg);
    return Done(out);
  }

  /** `getVarIndex` answers with the block of the first member of that name. */
  lemma VarIndexOfFirst(agg: Aggregate, name: string, i: nat)
    requires i < |agg| && agg[i].name == name
    requires forall j :: 0 <= j < i ==> agg[j].name != name
    ensures GetVarIndex(agg, name) == Some((Offset(agg, i), agg[i].dim))
  {
    var r := NameIndex(agg, name);
    assert r.Some?;
    FirstIsUnique(agg, name, r.value, i);
  }

  lemma FirstIsUnique(agg: Aggregate, name: string, a: nat, b: nat)
    requires a < |agg| && agg[a].name == name && forall j :: 0 <= j < a ==> agg[j].name != name
    requires b < |agg| && agg[b].name == name && forall j :: 0 <= j < b ==> agg[j].name != name
    ensures a == b
  {
  }

  /** The pair returned by `getVarIndex` addresses exactly the block that the
      bound setters write into that member: for a long enough `vals`, member
      `i` ends up as `vals[off:off+dim]` written into it. */
  lemma VarIndexAddressesSetterBlock(agg: Aggregate, f: Field, vals: Vec, nodes: Option<seq<int>>, name: string, i: nat)
    requires ValidAggregate(agg)
    requires i < |agg| && agg[i].name == name
    requires forall j :: 0 <= j < i ==> agg[j].name != name
    requires |vals| >= SumDims(agg)
    ensures GetVarIndex(agg, name) == Some((Offset(agg, i), agg[i].dim))
    ensures Offset(agg, i) + agg[i].dim <= |vals|
    ensures MemberAfter(agg[i], f, vals, nodes, Offset(agg, i)) ==
      SetField(agg[i], f, vals[Offset(agg, i) .. Offset(agg, i) + agg[i].dim], nodes).value
  {
    VarIndexOfFirst(agg, name, i);
    BlockInside(agg, i, |vals|);
    WholeBlockWritten(agg[i], f, vals, nodes, Offset(agg, i));
  }

  /** A member whose whole block is present receives exactly that block. */
  lemma WholeBlockWritten(v: Variable, f: Field, vals: Vec, nodes: Option<seq<int>>, lo: nat)
    requires Valid(v) && lo + v.dim <= |vals|
    ensures MemberAfter(v, f, vals, nodes, lo) == SetField(v, f, vals[lo .. lo + v.dim], nodes).value
  {
  }

  /** Every block lies inside a flat vector of at least the total length. */
  lemma BlockInside(agg: Aggregate, i: nat, len: nat)
    requires i < |agg| && len >= SumDims(agg)
    ensures Offset(agg, i) + agg[i].dim <= len
  {
    OffsetNext(agg, i);
    OffsetMonotone(agg, i + 1, |agg|);
    OffsetEnd(agg);
  }
}

=== FILE: common.dfy ===
/** Shared value types: extended floats, optional values and the outcome of an
    operation that may raise part-way through. */
module Common {

  /** A float as the solver sees it: finite, or one of the two infinities used
      for "unbounded" (NaN never occurs in the bookkeeping). */
  datatype Num = NegInf | Fin(x: real) | PosInf

  type Vec = seq<Num>

  datatype Option<+T> = None | Some(value: T)

  /** The exceptions the bookkeeping raises on purpose. */
  datatype Error =
    | WrongDimension      // value length differs from the quantity's dimension
    | WrongGoalDimension  // goal width is neither 1 nor the number of action nodes
    | MissingMethod       // a method is called that the class does not define
    | ShapeMismatch       // numpy cannot broadcast the operands together
    | NothingToStack      // `np.hstack` is given an empty list of arrays
    | PositionOutOfRange  // `np.delete` is given a position outside the array

  /** Result of a call that may raise. A raise does not roll back what was
      already written, so `partial` is the state at the moment of the raise. */
  datatype Outcome<+T> = Done(value: T) | Raised(error: Error, partial: T) {
    /** The state after the call, whether it returned or raised. */
    function State(): T {
      match this
      case Done(v) => v
      case Raised(_, p) => p
    }
  }

  /** `n` copies of `x` (numpy's `np.full`). */
  function Fill<T>(n: nat, x: T): (r: seq<T>)
    ensures |r| == n
    ensures forall i :: 0 <= i < n ==> r[i] == x
  {
    seq(n, _ => x)
  }

  /** A dense real matrix stored column by column; `rows` is numpy's shape[0]. */
  datatype Matrix = Matrix(rows: nat, cols: seq<seq<real>>)

  ghost predicate WellShaped(m: Matrix) {
    forall j :: 0 <= j < |m.cols| ==> |m.cols[j]| == m.rows
  }

  /** A 1-D array of length `|v|`, as a one-column matrix. */
  function Column(v: seq<real>): (m: Matrix)
    ensures WellShaped(m) && m.rows == |v| && m.cols == [v]
  {
    Matrix(|v|, [v])
  }
}

=== FILE: container.dfy ===
/** The variable container: every variable and parameter of a problem by
    name, and the horizon resize that reprojects them all. */
module Containers {
  import opened Common
  import opened NodeLists
  import opened Variables

  /** A stored variable: node-independent, or projected on nodes. */
  datatype VarEntry = SingleVar(sv: SingleVariable) | NodeVar(v: Variable)

  /** A stored parameter: node-independent, or projected on nodes. */
  datatype ParEntry = SinglePar(name: string, dim: nat) | NodePar(p: Parameter)

  /** `horizon` is None until the first resize sets it. The order in which
      entries were added plays no part in the operations modelled here. */
  datatype Container = Container(vars: map<string, VarEntry>, pars: map<string, ParEntry>, horizon: Option<int>)

  ghost predicate ValidEntry(e: VarEntry) {
    e.NodeVar? ==> Valid(e.v)
  }

  ghost predicate ValidParEntry(e: ParEntry) {
    e.NodePar? ==> ValidParameter(e.p)
  }

  ghost predicate ValidContainer(c: Container) {
    && (forall name :: name in c.vars ==> ValidEntry(c.vars[name]))
    && (forall name :: name in c.pars ==> ValidParEntry(c.pars[name]))
  }

  const Empty := Container(map[], map[], None)

  /** `createVar` and the `set*Var` wrappers: store the entry under its name,
      silently replacing an earlier one of the same name. */
  function CreateVar(c: Container, name: string, e: VarEntry): (r: Container)
    requires ValidContainer(c) && ValidEntry(e)
    ensures ValidContainer(r)
    ensures r.vars.Keys == c.vars.Keys + {name} && r.vars[name] == e
    ensures forall k :: k in c.vars && k != name ==> r.vars[k] == c.vars[k]
    ensures r.pars == c.pars && r.horizon == c.horizon
  {
    c.(vars := c.vars[name := e])
  }

  /** `setVar`: a single variable when no nodes are given, a plain one
      otherwise, whose nodes are sorted only when they come as a list. */
  function SetVar(c: Container, name: string, dim: nat, nodes: Option<seq<int>>, isList: bool): (r: Container)
    requires ValidContainer(c)
    ensures ValidContainer(r) && name in r.vars
    ensures nodes.None? <==> r.vars[name].SingleVar?
    ensures nodes.Some? ==> r.vars[name].v.kind == Plain
    ensures nodes.Some? ==> multiset(r.vars[name].v.nodes) == multiset(nodes.value)
    ensures nodes.Some? && isList ==> Sorted(r.vars[name].v.nodes)
    ensures nodes.Some? && !isList ==> r.vars[name].v.nodes == nodes.value
  {
    match nodes
    case None => CreateVar(c, name, SingleVar(NewSingleVariable(name, dim)))
    case Some(ns) => CreateVar(c, name, NodeVar(NewVariable(name, dim, Plain, ns, isList)))
  }

  /** `removeVar`: drop the variable and report whether it was there. */
  function RemoveVar(c: Container, name: string): (r: (Container, bool))
    ensures r.1 <==> name in c.vars
    ensures name !in r.0.vars && r.0.vars.Keys == c.vars.Keys - {name}
    ensures forall k :: k in r.0.vars ==> r.0.vars[k] == c.vars[k]
    ensures r.0.pars == c.pars && r.0.horizon == c.horizon
  {
    if name in c.vars then (c.(vars := c.vars - {name}), true)
    else (c, false)
  }

  /** Removing a variable that was just added under a fresh name gives back
      the container as it was; a second removal finds nothing. */
  lemma RemoveUndoesCreate(c: Container, name: string, e: VarEntry)
    requires ValidContainer(c) && ValidEntry(e) && name !in c.vars
    ensures RemoveVar(CreateVar(c, name, e), name) == (c, true)
    ensures RemoveVar(RemoveVar(CreateVar(c, name, e), name).0, name) == (c, false)
  {
    var r := RemoveVar(CreateVar(c, name, e), name).0;
    assert r.vars == c.vars;
  }

  /** The nodes a node-dependent variable is reprojected on by `setNNodes(n)`:
      0..n-2 for an input, 0..n-1 for a state, and for a plain variable its
      current nodes that are in `range(n)`, in their current order. */
  function ResizedNodes(v: Variable, n: int): seq<int> {
    match v.kind
    case Input => Range(0, n - 1)
    case State => Range(0, n)
    case Plain => Filter(v.nodes, k => 0 <= k < n)
  }

  /** One variable under `setNNodes(n)`. */
  function ResizeVar(e: VarEntry, n: int): (r: VarEntry)
    requires ValidEntry(e)
    ensures ValidEntry(r) && r.SingleVar? == e.SingleVar?
    ensures e.SingleVar? ==> r == e
    ensures e.NodeVar? ==> r.v.name == e.v.name && r.v.dim == e.v.dim && r.v.kind == e.v.kind
    ensures e.NodeVar? && e.v.kind == Input ==>
      Sorted(r.v.nodes) && forall k :: k in r.v.nodes <==> 0 <= k < n - 1
    ensures e.NodeVar? && e.v.kind == State ==>
      Sorted(r.v.nodes) && forall k :: k in r.v.nodes <==> 0 <= k < n
    ensures e.NodeVar? && e.v.kind == Plain ==>
      (forall k :: k in r.v.nodes <==> k in e.v.nodes && 0 <= k < n) &&
      (Sorted(e.v.nodes) ==> Sorted(r.v.nodes))
    ensures e.NodeVar? ==> forall k :: k in r.v.impl && k in e.v.impl ==> r.v.impl[k] == e.v.impl[k]
    ensures e.NodeVar? ==> forall k :: k in r.v.impl && k !in e.v.impl ==>
      r.v.impl[k] == DefaultRecord(e.v.name, e.v.dim, k, e.v.gen)
  {
    match e
    case SingleVar(_) => e
    case NodeVar(v) =>
      var ns := ResizedNodes(v, n);
      assert v.kind == Plain && Sorted(v.nodes) ==> Sorted(ns) by {
        if v.kind == Plain && Sorted(v.nodes) { FilterSorted(v.nodes, k => 0 <= k < n); }
      }
      NodeVar(Project(v, ns))
  }

  /** The variable half of `setNNodes`, which runs to completion. */
  function ResizeVars(vars: map<string, VarEntry>, n: int): (r: map<string, VarEntry>)
    requires forall name :: name in vars ==> ValidEntry(vars[name])
    ensures r.Keys == vars.Keys
    ensures forall name :: name in r ==> r[name] == ResizeVar(vars[name], n)
  {
    map name | name in vars :: ResizeVar(vars[name], n)
  }

  predicate HasNodeParameter(c: Container) {
    exists name :: name in c.pars && c.pars[name].NodePar?
  }

  /** `setNNodes` as written: every variable is reprojected, then the loop over
      the parameters calls `_setNNodes` on the first node-dependent one, a
      method `Parameter` does not define, so the call raises with the
      variables already resized and the horizon already recorded. */
  function SetNNodesAsWritten(c: Container, n: int): (r: Outcome<Container>)
    requires ValidContainer(c)
    ensures r.Raised? <==> HasNodeParameter(c)
    ensures r.Raised? ==> r.error == MissingMethod
    ensures r.State().vars == ResizeVars(c.vars, n)
    ensures r.State().pars == c.pars && r.State().horizon == Some(n)
  {
    var c1 := c.(vars := ResizeVars(c.vars, n), horizon := Some(n));
    if HasNodeParameter(c) then Raised(MissingMethod, c1) else Done(c1)
  }

  /** A container holding one node-dependent parameter cannot be resized. */
  lemma SetNNodesRaisesOnParameter(name: string, dim: nat, nodes: seq<int>, n: int)
    ensures SetNNodesAsWritten(Empty.(pars := map[name := NodePar(NewParameter(name, dim, nodes))]), n).Raised?
  {
    var c := Empty.(pars := map[name := NodePar(NewParameter(name, dim, nodes))]);
    assert c.pars[name].NodePar?;
  }

  /** A node-dependent parameter under the intended `setNNodes(n)`: like a
      plain variable, it keeps its nodes in `range(n)` and their values. */
  function ResizePar(e: ParEntry, n: int): (r: ParEntry)
    ensures r.NodePar? == e.NodePar?
    ensures e.SinglePar? ==> r == e
    ensures e.NodePar? ==> ValidParameter(r.p) && r.p.name == e.p.name && r.p.dim == e.p.dim
    ensures e.NodePar? ==> forall k :: k in r.p.nodes <==> k in e.p.nodes && 0 <= k < n
    ensures e.NodePar? && ValidParameter(e.p) ==> forall k :: k in r.p.values ==> r.p.values[k] == e.p.values[k]
  {
    match e
    case SinglePar(_, _) => e
    case NodePar(p) => NodePar(ProjectParameter(p, Filter(p.nodes, k => 0 <= k < n)))
  }

  /** `setNNodes` as intended: variables as before, and every node-dependent
      parameter reprojected too; nothing raises. */
  function SetNNodes(c: Container, n: int): (r: Container)
    requires ValidContainer(c)
    ensures ValidContainer(r)
    ensures r.vars == ResizeVars(c.vars, n) && r.horizon == Some(n)
    ensures r.pars.Keys == c.pars.Keys
    ensures forall name :: name in r.pars ==> r.pars[name] == ResizePar(c.pars[name], n)
  {
    Container(ResizeVars(c.vars, n), map name | name in c.pars :: ResizePar(c.pars[name], n), Some(n))
  }

  /** Without node-dependent parameters the intended resize is the written one. */
  lemma SetNNodesAgreesWithoutParameters(c: Container, n: int)
    requires ValidContainer(c) && !HasNodeParameter(c)
    ensures SetNNodesAsWritten(c, n) == Done(SetNNodes(c, n))
  {
    var r := SetNNodes(c, n);
    forall name | name in c.pars ensures r.pars[name] == c.pars[name] {
      assert !c.pars[name].NodePar?;
    }
    assert r.pars == c.pars;
  }

  /** Resizing twice to the same horizon changes nothing the second time. */
  lemma ResizeVarIdempotent(e: VarEntry, n: int)
    requires ValidEntry(e)
    ensures ResizeVar(ResizeVar(e, n), n) == ResizeVar(e, n)
  {
    if e.NodeVar? {
      var v1 := ResizeVar(e, n).v;
      var v2 := ResizeVar(ResizeVar(e, n), n).v;
      assert v2.nodes == v1.nodes by {
        if e.v.kind == Plain {
          var p := k => 0 <= k < n;
          assert v1.nodes == Filter(e.v.nodes, p);
          FilterKeepsAll(v1.nodes, p);
        }
      }
      assert v2.impl == v1.impl;
    }
  }

  lemma SetNNodesIdempotent(c: Container, n: int)
    requires ValidContainer(c)
    ensures SetNNodes(SetNNodes(c, n), n) == SetNNodes(c, n)
  {
    var r1 := SetNNodes(c, n);
    ResizeVarsIdempotent(c.vars, n);
    ResizeParsIdempotent(c.pars, r1.pars, n);
  }

  lemma ResizeVarsIdempotent(vars: map<string, VarEntry>, n: int)
    requires forall name :: name in vars ==> ValidEntry(vars[name])
    ensures ResizeVars(ResizeVars(vars, n), n) == ResizeVars(vars, n)
  {
    var r1 := ResizeVars(vars, n);
    var r2 := ResizeVars(r1, n);
    forall name | name in vars ensures r2[name] == r1[name] {
      ResizeVarIdempotent(vars[name], n);
    }
  }

  /** `r1` is the parameter map after one intended resize to `n`. */
  lemma ResizeParsIdempotent(pars: map<string, ParEntry>, r1: map<string, ParEntry>, n: int)
    requires r1.Keys == pars.Keys
    requires forall name :: name in r1 ==> r1[name] == ResizePar(pars[name], n)
    ensures (map name | name in r1 :: ResizePar(r1[name], n)) == r1
  {
    forall name | name in pars ensures ResizePar(r1[name], n) == r1[name] {
      ResizeParIdempotent(pars[name], n);
    }
  }

  lemma ResizeParIdempotent(e: ParEntry, n: int)
    ensures ResizePar(ResizePar(e, n), n) == ResizePar(e, n)
  {
    if e.NodePar? {
      var p1 := ResizePar(e, n).p;
      var q := k => 0 <= k < n;
      assert p1.nodes == Filter(e.p.nodes, q);
      FilterKeepsAll(p1.nodes, q);
      assert ResizePar(ResizePar(e, n), n).p.values == p1.values;
    }
  }

  /** Shrinking the horizon to `n` and growing it back to `m` keeps a state
      variable's records only below `n`: the nodes in between come back with
      default records and new symbols, because the records a resize drops are
      forgotten. */
  lemma ShrinkThenGrow(v: Variable, n: int, m: int)
    requires Valid(v) && v.kind == State && 0 <= n <= m
    ensures var mid := ResizeVar(NodeVar(v), n).v;
      var r := ResizeVar(NodeVar(mid), m).v;
      && (forall k :: k in r.impl <==> 0 <= k < m)
      && (forall k :: 0 <= k < n && k in v.impl ==> r.impl[k] == v.impl[k])
      && (forall k :: 0 <= k < n && k !in v.impl ==> r.impl[k] == DefaultRecord(v.name, v.dim, k, v.gen))
      && (forall k :: n <= k < m ==> r.impl[k] == DefaultRecord(v.name, v.dim, k, mid.gen))
      && (SymbolsBefore(v) ==> forall k :: n <= k < m && k in v.impl ==> r.impl[k].sym != v.impl[k].sym)
  {
    var mid := ResizeVar(NodeVar(v), n).v;
    var r := ResizeVar(NodeVar(mid), m).v;
    forall k | n <= k < m ensures r.impl[k] == DefaultRecord(v.name, v.dim, k, mid.gen) {
      assert k !in mid.impl;
    }
  }
}

=== FILE: node_lists.dfy ===
/** Integer node lists: the ranges, filters, shifts and de-duplicating appends
    that the variable store, the receding tasks and the action scheduler use to
    decide which horizon nodes an object is active on. */
module NodeLists {

  ghost predicate Sorted(s: seq<int>) {
    forall i, j :: 0 <= i < j < |s| ==> s[i] <= s[j]
  }

  ghost predicate NoDup<T>(s: seq<T>) {
    forall i, j :: 0 <= i < j < |s| ==> s[i] != s[j]
  }

  /** Python's `list(range(lo, hi))`. */
  function Range(lo: int, hi: int): (r: seq<int>)
    ensures |r| == if lo < hi then hi - lo else 0
    ensures forall k :: k in r <==> lo <= k < hi
    ensures Sorted(r) && NoDup(r)
  {
    if lo < hi then
      var r := seq(hi - lo, i => lo + i);
      assert forall k :: lo <= k < hi ==> k in r by {
        forall k | lo <= k < hi ensures k in r {
          assert r[k - lo] == k;
        }
      }
      r
    else []
  }

  /** `[x for x in s if p(x)]`. */
  function Filter<T(==,!new)>(s: seq<T>, p: T -> bool): (r: seq<T>)
    ensures |r| <= |s|
    ensures forall x :: x in r <==> x in s && p(x)
  {
    if |s| == 0 then []
    else (if p(s[0]) then [s[0]] else []) + Filter(s[1..], p)
  }

  lemma {:induction false} FilterSorted(s: seq<int>, p: int -> bool)
    requires Sorted(s)
    ensures Sorted(Filter(s, p))
  {
    if |s| > 0 {
      FilterSorted(s[1..], p);
      var rest := Filter(s[1..], p);
      forall j | 0 <= j < |rest|
        ensures s[0] <= rest[j]
      {
        assert rest[j] in s[1..];
      }
    }
  }

  lemma {:induction false} FilterNoDup<T(!new)>(s: seq<T>, p: T -> bool)
    requires NoDup(s)
    ensures NoDup(Filter(s, p))
  {
    if |s| > 0 {
      assert NoDup(s[1..]) by {
        forall i, j | 0 <= i < j < |s[1..]| ensures s[1..][i] != s[1..][j] {
          assert s[1..][i] == s[i + 1] && s[1..][j] == s[j + 1];
        }
      }
      FilterNoDup(s[1..], p);
      var rest := Filter(s[1..], p);
      forall j | 0 <= j < |rest|
        ensures s[0] != rest[j]
      {
        assert rest[j] in s[1..];
        var k :| 0 <= k < |s[1..]| && s[1..][k] == rest[j];
        assert s[k + 1] == rest[j];
      }
    }
  }

  /** A filter that keeps every element is the identity. */
  lemma {:induction false} FilterKeepsAll<T(!new)>(s: seq<T>, p: T -> bool)
    requires forall x :: x in s ==> p(x)
    ensures Filter(s, p) == s
  {
    if |s| > 0 {
      assert forall x :: x in s[1..] ==> x in s;
      FilterKeepsAll(s[1..], p);
      assert s == [s[0]] + s[1..];
    }
  }

  /** A filter that keeps no element leaves nothing. */
  lemma {:induction false} FilterKeepsNone<T(!new)>(s: seq<T>, p: T -> bool)
    requires forall x :: x in s ==> !p(x)
    ensures Filter(s, p) == []
  {
    if |s| > 0 {
      assert s[0] in s;
      assert forall x :: x in s[1..] ==> x in s;
      FilterKeepsNone(s[1..], p);
    }
  }

  /** `[x + d for x in s]`. */
  function Shift(s: seq<int>, d: int): (r: seq<int>)
    ensures |r| == |s|
    ensures forall i :: 0 <= i < |s| ==> r[i] == s[i] + d
  {
    seq(|s|, i requires 0 <= i < |s| => s[i] + d)
  }

  lemma ShiftMember(s: seq<int>, d: int, k: int)
    ensures k in Shift(s, d) <==> k - d in s
  {
    if k - d in s {
      var i :| 0 <= i < |s| && s[i] == k - d;
      assert Shift(s, d)[i] == k;
    }
  }

  /** The nodes of `active` that were requested, in the order of `active`.
      This is how reads and writes restrict a caller's node request to the
      nodes a quantity actually lives on (`misc.checkNodes`). */
  function CheckNodes(requested: seq<int>, active: seq<int>): (r: seq<int>)
    ensures forall k :: k in r <==> k in active && k in requested
    ensures Sorted(active) ==> Sorted(r)
  {
    var r := Filter(active, k => k in requested);
    assert Sorted(active) ==> Sorted(r) by {
      if Sorted(active) { FilterSorted(active, k => k in requested); }
    }
    r
  }

  /** Requesting every active node selects the whole active list. */
  lemma CheckNodesAll(active: seq<int>)
    ensures CheckNodes(active, active) == active
  {
    FilterKeepsAll(active, k => k in active);
  }

  /** `checkNodes([n + d for n in req], active)`: the active nodes m for
      which m - d was requested, in the order of `active`. */
  function CheckShifted(req: seq<int>, active: seq<int>, d: int): (r: seq<int>)
    ensures forall m {:trigger m in r} :: m in r <==> m in active && m - d in req
    ensures NoDup(active) ==> NoDup(r)
  {
    if |active| == 0 then []
    else
      var rest := CheckShifted(req, active[1..], d);
      assert forall m :: m in active <==> m == active[0] || m in active[1..];
      assert NoDup(active) ==> NoDup(active[1..]) && active[0] !in active[1..] by {
        if NoDup(active) { NoDupTail(active); }
      }
      var r := (if active[0] - d in req then [active[0]] else []) + rest;
      forall m ensures m in r <==> m in active && m - d in req {
        assert m in r <==> (m == active[0] && active[0] - d in req) || m in rest;
      }
      r
  }

  /** Membership in `CheckShifted` against any set the active nodes enumerate. */
  lemma CheckShiftedOver(req: seq<int>, active: seq<int>, keys: set<int>, d: int)
    requires forall n :: n in active <==> n in keys
    ensures forall m {:trigger m in CheckShifted(req, active, d)} :: m in CheckShifted(req, active, d) <==> m in keys && m - d in req
  {
  }

  /** The same, when the active nodes are also the requested ones. */
  lemma CheckShiftedOwn(active: seq<int>, keys: set<int>, d: int)
    requires forall n :: n in active <==> n in keys
    ensures forall m {:trigger m in CheckShifted(active, active, d)} :: m in CheckShifted(active, active, d) <==> m in keys && m - d in keys
  {
  }

  lemma NoDupTail<T>(s: seq<T>)
    requires NoDup(s) && |s| > 0
    ensures NoDup(s[1..]) && s[0] !in s[1..]
  {
    forall k | 0 <= k < |s| - 1 ensures s[1..][k] != s[0] {
      assert s[1..][k] == s[k + 1];
    }
  }

  /** The shifted check agrees with shifting the request and then checking it. */
  lemma {:induction false} CheckShiftedIsCheckNodes(req: seq<int>, active: seq<int>, d: int)
    ensures CheckShifted(req, active, d) == CheckNodes(Shift(req, d), active)
  {
    if |active| > 0 {
      CheckShiftedIsCheckNodes(req, active[1..], d);
      ShiftMember(req, d, active[0]);
      CheckShiftedStep(req, active, d);
      CheckNodesStep(Shift(req, d), active);
    }
  }

  lemma CheckShiftedStep(req: seq<int>, active: seq<int>, d: int)
    requires |active| > 0
    ensures CheckShifted(req, active, d) ==
      (if active[0] - d in req then [active[0]] else []) + CheckShifted(req, active[1..], d)
  {
  }

  lemma CheckNodesStep(requested: seq<int>, active: seq<int>)
    requires |active| > 0
    ensures CheckNodes(requested, active) ==
      (if active[0] in requested then [active[0]] else []) + CheckNodes(requested, active[1..])
  {
    var p := k => k in requested;
    assert CheckNodes(requested, active) == Filter(active, p);
    assert CheckNodes(requested, active[1..]) == Filter(active[1..], p);
  }

  /** Appends each node of `extra` that is not yet in the list, in order
      (`ActionManager._append_nodes`). */
  function AppendNew<T(==,!new)>(list: seq<T>, extra: seq<T>): (r: seq<T>)
    ensures |list| <= |r| <= |list| + |extra|
    ensures r[..|list|] == list
    ensures forall x :: x in r <==> x in list || x in extra
    ensures NoDup(list) ==> NoDup(r)
    decreases |extra|
  {
    if |extra| == 0 then list
    else
      var next := if extra[0] in list then list else list + [extra[0]];
      var r := AppendNew(next, extra[1..]);
      assert r[..|list|] == next[..|list|];
      assert forall x :: x in extra <==> x == extra[0] || x in extra[1..];
      r
  }

  /** The list without repeated elements, first occurrences kept in order. */
  function Dedupe<T(==,!new)>(s: seq<T>): (r: seq<T>)
    ensures NoDup(r)
    ensures forall x :: x in r <==> x in s
  {
    AppendNew([], s)
  }

  /** Appending the same nodes twice changes nothing the second time. */
  lemma {:induction false} AppendNewIdempotent<T(!new)>(list: seq<T>, extra: seq<T>)
    ensures AppendNew(AppendNew(list, extra), extra) == AppendNew(list, extra)
  {
    AppendNewAlreadyPresent(AppendNew(list, extra), extra);
  }

  /** Appending nodes that are all present already is a no-op. */
  lemma {:induction false} AppendNewAlreadyPresent<T(!new)>(list: seq<T>, extra: seq<T>)
    requires forall x :: x in extra ==> x in list
    ensures AppendNew(list, extra) == list
    decreases |extra|
  {
    if |extra| > 0 {
      assert extra[0] in list;
      assert forall x :: x in extra[1..] ==> x in extra;
      AppendNewAlreadyPresent(list, extra[1..]);
    }
  }

  /** Inserts `x` into a sorted list. */
  function Insert(x: int, s: seq<int>): (r: seq<int>)
    requires Sorted(s)
    ensures Sorted(r)
    ensures multiset(r) == multiset(s) + multiset{x}
  {
    if |s| == 0 then [x]
    else if x <= s[0] then [x] + s
    else
      var rest := Insert(x, s[1..]);
      assert forall j :: 0 <= j < |rest| ==> s[0] <= rest[j] by {
        forall j | 0 <= j < |rest| ensures s[0] <= rest[j] {
          assert rest[j] in multiset(rest);
          assert rest[j] in multiset(s[1..]) + multiset{x};
          if rest[j] != x {
            assert rest[j] in s[1..];
          }
        }
      }
      SortedCons(s[0], rest);
      assert s == [s[0]] + s[1..];
      [s[0]] + rest
  }

  lemma SortedCons(h: int, t: seq<int>)
    requires Sorted(t) && forall j :: 0 <= j < |t| ==> h <= t[j]
    ensures Sorted([h] + t)
  {
  }

  /** Python's in-place `list.sort()` on node lists: ascending, same elements
      with the same multiplicities. */
  function Sort(s: seq<int>): (r: seq<int>)
    ensures Sorted(r)
    ensures multiset(r) == multiset(s)
  {
    if |s| == 0 then []
    else
      assert s == [s[0]] + s[1..];
      Insert(s[0], Sort(s[1..]))
  }
}

=== FILE: polynomial.dfy ===
/** The two closed forms shared by the scheduler and the receding tasks: the
    swing-height bump and the one-sided barrier penalty. Both are evaluated
    over exact reals here, not floats. */
module Polynomial {

  /** `_trj`: the bump 64·τ³·(1-τ)³, zero at both ends of a swing. */
  function Trj(tau: real): (r: real)
    ensures tau == 0.0 || tau == 1.0 ==> r == 0.0
  {
    64.0 * tau * tau * tau * (1.0 - tau) * (1.0 - tau) * (1.0 - tau)
  }

  lemma QuarterBound(tau: real)
    ensures tau * (1.0 - tau) <= 0.25
  {
    assert 0.25 - tau * (1.0 - tau) == (tau - 0.5) * (tau - 0.5);
  }

  lemma MulNonneg(a: real, b: real)
    requires a >= 0.0 && b >= 0.0
    ensures a * b >= 0.0
  {
  }

  lemma MulLe(a: real, b: real, c: real)
    requires a <= b && c >= 0.0
    ensures a * c <= b * c
  {
    assert b * c - a * c == (b - a) * c;
    MulNonneg(b - a, c);
  }

  lemma CubeMonotone(a: real, b: real)
    requires 0.0 <= a <= b
    ensures 0.0 <= a * a * a <= b * b * b
  {
    MulNonneg(a, a);
    MulNonneg(a * a, a);
    MulLe(a, b, a);
    MulLe(a * a, a * b, a);
    MulLe(a, b, b);
    MulLe(a * b, b * b, a);
    MulNonneg(b, b);
    MulLe(a, b, b * b);
    assert a * a * a <= a * b * a;
    assert a * b * a == a * (b * a);
  }

  /** Over a swing the bump stays within [0, 1], so `clearance` is its height. */
  lemma TrjBounds(tau: real)
    requires 0.0 <= tau <= 1.0
    ensures 0.0 <= Trj(tau) <= 1.0
  {
    var p := tau * (1.0 - tau);
    MulNonneg(tau, 1.0 - tau);
    QuarterBound(tau);
    CubeMonotone(p, 0.25);
    assert Trj(tau) == 64.0 * (p * p * p);
  }

  /** The bump peaks at mid-swing with height exactly 1 and is symmetric. */
  lemma TrjPeakAndSymmetry(tau: real)
    ensures Trj(0.5) == 1.0
    ensures Trj(1.0 - tau) == Trj(tau)
  {
  }

  /** The swing value at phase τ: the bump scaled by `clearance` on top of
      the straight line from `start` to `goal`. */
  function PolyAt(tau: real, start: real, goal: real, clearance: real): real {
    Trj(tau) * clearance + Line(tau, start, goal)
  }

  /** The straight line from `start` (τ = 0) to `goal` (τ = 1). */
  function Line(tau: real, start: real, goal: real): real {
    (1.0 - tau) * start + tau * goal
  }

  /** The phase of node `k` in a swing of `duration` nodes from `kStart`. */
  function Tau(k: int, kStart: int, duration: int): real
    requires duration != 0
  {
    (k - kStart) as real / duration as real
  }

  /** The swing value at node `k`, as `compute_polynomial_trajectory` and
      `set_polynomial_trajectory` compute it. */
  function PolyPoint(k: int, kStart: int, duration: int, start: real, goal: real, clearance: real): real
    requires duration != 0
  {
    PolyAt(Tau(k, kStart, duration), start, goal, clearance)
  }

  /** The swing leaves from `start` and lands on `goal`. */
  lemma PolyEndpoints(kStart: int, duration: int, start: real, goal: real, clearance: real)
    requires duration != 0
    ensures PolyPoint(kStart, kStart, duration, start, goal, clearance) == start
    ensures PolyPoint(kStart + duration, kStart, duration, start, goal, clearance) == goal
  {
    assert Tau(kStart, kStart, duration) == 0.0;
    assert Tau(kStart + duration, kStart, duration) == 1.0;
  }

  /** A node inside the swing has its phase in [0, 1]. */
  lemma TauInSwing(k: int, kStart: int, duration: int)
    requires duration > 0 && kStart <= k <= kStart + duration
    ensures 0.0 <= Tau(k, kStart, duration) <= 1.0
  {
    UnitFraction((k - kStart) as real, duration as real);
  }

  /** Inside the swing the value lies between the straight line and the line
      raised by the clearance. */
  lemma PolyAtWithin(tau: real, start: real, goal: real, clearance: real)
    requires 0.0 <= tau <= 1.0 && clearance >= 0.0
    ensures Line(tau, start, goal) <= PolyAt(tau, start, goal, clearance) <= Line(tau, start, goal) + clearance
  {
    BumpWithinClearance(tau, clearance);
  }

  lemma BumpWithinClearance(tau: real, clearance: real)
    requires 0.0 <= tau <= 1.0 && clearance >= 0.0
    ensures 0.0 <= Trj(tau) * clearance <= clearance
  {
    TrjBounds(tau);
    MulNonneg(Trj(tau), clearance);
    MulLe(Trj(tau), 1.0, clearance);
  }

  lemma UnitFraction(num: real, den: real)
    requires den > 0.0 && 0.0 <= num <= den
    ensures 0.0 <= num / den <= 1.0
  {
  }

  /** A product of two reals with the sign facts the barrier relies on. */
  function Mul(a: real, b: real): (r: real)
    ensures a < 0.0 && b < 0.0 ==> r > 0.0
    ensures a == 0.0 ==> r == 0.0
  {
    a * b
  }

  /** One component of `_barrier`: no penalty for a positive margin, the
      square of the margin otherwise. */
  function BarrierTerm(x: real): (r: real)
    ensures r >= 0.0
    ensures r > 0.0 <==> x < 0.0
  {
    if x > 0.0 then 0.0 else Mul(x, x)
  }

  /** `_barrier(x)`: the sum of the component penalties. */
  function Barrier(x: seq<real>): (r: real)
    ensures r >= 0.0
    ensures r == 0.0 <==> forall i :: 0 <= i < |x| ==> x[i] >= 0.0
  {
    if |x| == 0 then 0.0
    else
      var rest := Barrier(x[1..]);
      assert (forall i :: 0 <= i < |x| ==> x[i] >= 0.0) <==>
        x[0] >= 0.0 && forall i :: 0 <= i < |x[1..]| ==> x[1..][i] >= 0.0 by {
        if forall i :: 0 <= i < |x[1..]| ==> x[1..][i] >= 0.0 {
          forall i | 1 <= i < |x| ensures x[i] >= 0.0 {
            assert x[i] == x[1..][i - 1];
          }
        }
      }
      BarrierTerm(x[0]) + rest
  }

  lemma SquaresOrdered(s: real, t: real)
    requires t <= s <= 0.0
    ensures BarrierTerm(s) <= BarrierTerm(t)
  {
    MulAntitone(s, t, s, t);
  }

  /** On non-positive factors the product grows as the factors decrease. */
  lemma MulAntitone(a: real, b: real, c: real, d: real)
    requires b <= a <= 0.0 && d <= c <= 0.0
    ensures Mul(a, c) <= Mul(b, d)
  {
    MulNonneg(a - b, -c);
    assert b * c - a * c == (a - b) * (-c);
    MulNonneg(c - d, -b);
    assert b * d - b * c == (c - d) * (-b);
  }

  /** The penalty grows with the violation: of two margins agreeing except at
      one component, the one violating it more is penalised more. */
  lemma {:induction false} BarrierMonotone(x: seq<real>, y: seq<real>, j: nat)
    requires |x| == |y| && j < |x|
    requires forall i :: 0 <= i < |x| && i != j ==> x[i] == y[i]
    requires y[j] <= x[j] <= 0.0
    ensures Barrier(x) <= Barrier(y)
  {
    if j > 0 {
      BarrierMonotone(x[1..], y[1..], j - 1);
      assert x[0] == y[0];
    } else {
      assert x[1..] == y[1..];
      assert Barrier(x) == BarrierTerm(x[0]) + Barrier(x[1..]);
      assert Barrier(y) == BarrierTerm(y[0]) + Barrier(y[1..]);
      SquaresOrdered(x[0], y[0]);
    }
  }
}

=== FILE: receding_tasks.dfy ===
/** Receding-horizon tasks: a Cartesian target task that follows an action
    over a node range, and a contact that keeps the stance and unilateral
    node lists of one foot and pins its force while the foot swings. */
module RecedingTasks {
  import opened Common
  import opened NodeLists
  import opened Variables
  import opened Polynomial

  // ----- goals and numpy broadcasting -----

  /** A goal array as an action carries it: one-dimensional, or a matrix. */
  datatype Goal = Flat(v: seq<real>) | Grid(m: Matrix)

  ghost predicate ValidGoal(g: Goal) {
    g.Grid? ==> WellShaped(g.m)
  }

  /** `np.atleast_2d`: a flat goal of length L becomes one row of L columns. */
  function AtLeast2d(g: Goal): (r: Matrix)
    ensures ValidGoal(g) ==> WellShaped(r)
    ensures g.Flat? ==> r.rows == 1 && |r.cols| == |g.v|
    ensures g.Flat? ==> forall j :: 0 <= j < |g.v| ==> r.cols[j] == [g.v[j]]
    ensures g.Grid? ==> r == g.m
  {
    match g
    case Flat(v) => Matrix(1, seq(|v|, j requires 0 <= j < |v| => [v[j]]))
    case Grid(m) => m
  }

  /** `np.atleast_2d(goal).shape[1]`. */
  function Width(g: Goal): nat {
    |AtLeast2d(g).cols|
  }

  /** numpy's rule for two lengths along one axis: equal, or one of them 1. */
  predicate Compatible(a: nat, b: nat) {
    a == b || a == 1 || b == 1
  }

  /** The broadcast length of two compatible lengths. */
  function BLen(a: nat, b: nat): nat {
    if a == 1 then b else a
  }

  /** Entry `j` of a 1-D array stretched by broadcasting. */
  function Bcast(s: seq<real>, j: nat): real
    requires |s| == 1 || j < |s|
  {
    if |s| == 1 then s[0] else s[j]
  }

  /** The number of rows of a trajectory value built from `start` and `goal`. */
  function TrajRows(start: seq<real>, goal: Goal): nat {
    match goal
    case Flat(g) => BLen(|start|, |g|)
    case Grid(m) => m.rows
  }

  /** `_trj(τ)·clearance + (1-τ)·start + τ·goal` under numpy broadcasting
      (1-D start against the goal's last axis); None where numpy raises. A
      1-D result is the column of its entries. */
  function TrajValue(tau: real, start: seq<real>, goal: Goal, clearance: real): (r: Option<Matrix>)
    requires ValidGoal(goal)
    ensures r.Some? <==> Compatible(|start|, Width(goal))
    ensures r.Some? ==> WellShaped(r.value) && r.value.rows == TrajRows(start, goal)
  {
    if !Compatible(|start|, Width(goal)) then None
    else
      match goal
      case Flat(g) =>
        var w := BLen(|start|, |g|);
        Some(Column(seq(w, j requires 0 <= j < w =>
          PolyAt(tau, Bcast(start, j), Bcast(g, j), clearance))))
      case Grid(m) =>
        var w := BLen(|start|, |m.cols|);
        Some(Matrix(m.rows, seq(w, j requires 0 <= j < w =>
          seq(m.rows, i requires 0 <= i < m.rows =>
            PolyAt(tau, Bcast(start, j), m.cols[if |m.cols| == 1 then 0 else j][i], clearance)))))
  }

  /** For a flat goal as long as the start, the trajectory value is the start
      at phase 0 and the goal at phase 1, whatever the clearance. */
  lemma TrajValueEndpoints(start: seq<real>, goal: seq<real>, clearance: real)
    requires |start| == |goal|
    ensures TrajValue(0.0, start, Flat(goal), clearance) == Some(Column(start))
    ensures TrajValue(1.0, start, Flat(goal), clearance) == Some(Column(goal))
  {
    var L := |start|;
    assert Width(Flat(goal)) == L;
    var v0 := TrajValue(0.0, start, Flat(goal), clearance).value;
    var v1 := TrajValue(1.0, start, Flat(goal), clearance).value;
    assert v0.cols[0] == start;
    assert v1.cols[0] == goal;
  }

  /** A trajectory value can be assigned to `p`: it broadcasts, and its row
      count is the parameter's dimension. */
  predicate TrajFits(p: Parameter, start: seq<real>, goal: Goal) {
    Compatible(|start|, Width(goal)) && TrajRows(start, goal) == p.dim
  }

  // ----- Cartesian task -----

  /** What `activate` records: the action, its node list and its length. */
  datatype Action = Action(kStart: int, kGoal: int, start: seq<real>, goal: Goal)

  datatype Activation = Activation(action: Action, nodes: seq<int>, n: nat)

  /** `nn` is the problem's node count; `target` is the position parameter;
      `constrNodes` the nodes of the position constraint. */
  datatype CartesianTask = CartesianTask(
    nn: int,
    target: Parameter,
    constrNodes: seq<int>,
    active: Option<Activation>,
    trajectoryMode: bool)

  ghost predicate ValidTask(t: CartesianTask) {
    && ValidParameter(t.target)
    && (t.active.Some? ==> ValidGoal(t.active.value.action.goal))
    && (t.active.Some? && t.active.value.n == 0 ==> t.active.value.nodes == [])
  }

  /** The assignment loop of `set_polynomial_trajectory` over `ks`. Every
      value has the same shape, so either the first assignment raises and
      nothing is written, or every one succeeds. */
  function AssignEach(p: Parameter, ks: seq<int>, kStart: int, n: int, start: seq<real>, goal: Goal, clearance: real): (r: Outcome<Parameter>)
    requires ValidParameter(p) && ValidGoal(goal)
    requires n != 0 || ks == []
    ensures r.Raised? <==> ks != [] && !TrajFits(p, start, goal)
    ensures r.Raised? ==> r.partial == p
    ensures r.Raised? ==> r.error == if Compatible(|start|, Width(goal)) then WrongDimension else ShapeMismatch
    ensures r.Done? ==> ValidParameter(r.value) && r.value.nodes == p.nodes
    ensures r.Done? ==> r.value.name == p.name && r.value.dim == p.dim
    ensures r.Done? ==> forall k :: k in p.values ==>
      r.value.values[k] ==
        if k in ks then TrajValue(Tau(k, kStart, n), start, goal, clearance).value else p.values[k]
    decreases |ks|
  {
    if |ks| == 0 then Done(p)
    else
      match TrajValue(Tau(ks[0], kStart, n), start, goal, clearance)
      case None => Raised(ShapeMismatch, p)
      case Some(v) =>
        match Assign(p, v, Some([ks[0]]))
        case Raised(e, _) => Raised(e, p)
        case Done(p1) =>
          var r := AssignEach(p1, ks[1..], kStart, n, start, goal, clearance);
          assert forall k :: k in ks <==> k == ks[0] || k in ks[1..];
          r
  }

  /** `set_polynomial_trajectory`: assign the swing value to every given node
      in `[0, nn - 1]`, with τ normalised by the action length and the
      clearance 0.10 unless one is given. */
  function SetPolynomialTrajectory(t: CartesianTask, kStart: int, nodes: seq<int>, start: seq<real>, goal: Goal, clearance: Option<real>): (r: Outcome<Parameter>)
    requires ValidTask(t) && t.active.Some? && ValidGoal(goal)
    requires t.active.value.n == 0 ==> nodes == []
    ensures r.Raised? <==> (exists k :: k in nodes && 0 <= k <= t.nn - 1) && !TrajFits(t.target, start, goal)
    ensures r.Raised? ==> r.partial == t.target
    ensures r.Done? ==> ValidParameter(r.value) && r.value.nodes == t.target.nodes && r.value.dim == t.target.dim
    ensures r.Done? ==> forall k :: k in t.target.values ==>
      r.value.values[k] ==
        if k in nodes && 0 <= k <= t.nn - 1
        then TrajValue(Tau(k, kStart, t.active.value.n), start, goal,
                       if clearance.None? then 0.10 else clearance.value).value
        else t.target.values[k]
  {
    var c := if clearance.None? then 0.10 else clearance.value;
    var inHorizon := Filter(nodes, k => 0 <= k <= t.nn - 1);
    assert inHorizon != [] <==> exists k :: k in nodes && 0 <= k <= t.nn - 1 by {
      if inHorizon != [] {
        var x := inHorizon[0];
        assert x in inHorizon;
      }
    }
    AssignEach(t.target, inHorizon, kStart, t.active.value.n, start, goal, c)
  }

  function WithTarget(t: CartesianTask, o: Outcome<Parameter>): (r: Outcome<CartesianTask>)
    ensures r.Raised? == o.Raised? && r.State() == t.(target := o.State())
    ensures r.Raised? ==> r.error == o.error
  {
    match o
    case Done(p) => Done(t.(target := p))
    case Raised(e, p) => Raised(e, t.(target := p))
  }

  /** `activate`: the action covers `[kStart, kGoal)`. A goal whose width is
      neither 1 nor the action length raises before any node list or target
      is touched. A goal as wide as the action is assigned whole to the
      action nodes; a one-column goal switches to trajectory mode. */
  function Activate(t: CartesianTask, a: Action): (r: Outcome<CartesianTask>)
    requires ValidTask(t) && ValidGoal(a.goal)
    ensures ValidTask(r.State()) && r.State().nn == t.nn && r.State().target.nodes == t.target.nodes
    ensures r.State().active == Some(Activation(a, Range(a.kStart, a.kGoal), |Range(a.kStart, a.kGoal)|))
    ensures var n := |Range(a.kStart, a.kGoal)|;
      (r.Raised? && r.error == WrongGoalDimension) <==> Width(a.goal) != n && Width(a.goal) != 1
    ensures var n := |Range(a.kStart, a.kGoal)|;
      Width(a.goal) != n && Width(a.goal) != 1 ==>
        r.State().constrNodes == t.constrNodes && r.State().target == t.target
    ensures var n := |Range(a.kStart, a.kGoal)|;
      Width(a.goal) == n || Width(a.goal) == 1 ==>
        r.State().constrNodes == Range(a.kStart, a.kGoal) && (r.State().trajectoryMode <==> Width(a.goal) != n)
    ensures r.Done? && !r.value.trajectoryMode ==> forall k :: k in t.target.values ==>
      r.value.target.values[k] == if a.kStart <= k < a.kGoal then AtLeast2d(a.goal) else t.target.values[k]
    ensures r.Done? && r.value.trajectoryMode ==> forall k :: k in t.target.values ==>
      r.value.target.values[k] ==
        if a.kStart <= k < a.kGoal && 0 <= k <= t.nn - 1
        then TrajValue(Tau(k, a.kStart, |Range(a.kStart, a.kGoal)|), a.start, a.goal, 0.10).value
        else t.target.values[k]
  {
    var nodes := Range(a.kStart, a.kGoal);
    var n := |nodes|;
    var w := Width(a.goal);
    var t1 := t.(trajectoryMode := false, active := Some(Activation(a, nodes, n)));
    if w != n && w != 1 then Raised(WrongGoalDimension, t1)
    else
      var t2 := t1.(trajectoryMode := w != n, constrNodes := nodes);
      if w != n then WithTarget(t2, SetPolynomialTrajectory(t2, a.kStart, nodes, a.start, a.goal, None))
      else
        var o := Assign(t2.target, AtLeast2d(a.goal), Some(nodes));
        assert o.Raised? ==> o.error == WrongDimension;
        WithTarget(t2, o)
  }

  /** The node bookkeeping of `recede` on an active task whose goal node is
      not yet behind: both ends move by `ks` and only shifted nodes at or
      after 0 stay. */
  function ShiftActivation(t: CartesianTask, ks: int): (r: CartesianTask)
    requires ValidTask(t) && t.active.Some?
    ensures ValidTask(r) && r.active.Some? && r.target == t.target && r.nn == t.nn
    ensures r.trajectoryMode == t.trajectoryMode && r.constrNodes == r.active.value.nodes
    ensures var a, a1 := t.active.value, r.active.value;
      a1.n == a.n && a1.action.start == a.action.start && a1.action.goal == a.action.goal &&
      a1.action.kStart == a.action.kStart + ks && a1.action.kGoal == a.action.kGoal + ks
    ensures forall x :: x in r.active.value.nodes <==> x >= 0 && x - ks in t.active.value.nodes
  {
    var a := t.active.value;
    var action := a.action.(kStart := a.action.kStart + ks, kGoal := a.action.kGoal + ks);
    var nodes := Filter(Shift(a.nodes, ks), x => x >= 0);
    forall x ensures x in nodes <==> x >= 0 && x - ks in a.nodes {
      ShiftMember(a.nodes, ks, x);
    }
    t.(active := Some(Activation(action, nodes, a.n)), constrNodes := nodes)
  }

  /** The part of the goal a receded constant-mode task assigns: the goal
      columns of the `m` nodes still ahead, which are the last `m`. */
  function GoalTail(goal: Goal, m: nat): (r: Matrix)
    requires ValidGoal(goal)
    ensures WellShaped(r) && r.rows == AtLeast2d(goal).rows
    ensures |r.cols| == if m <= Width(goal) then m else Width(goal)
    ensures r.cols == AtLeast2d(goal).cols[Width(goal) - |r.cols|..]
  {
    var g := AtLeast2d(goal);
    var k := if m <= |g.cols| then m else |g.cols|;
    Matrix(g.rows, g.cols[|g.cols| - k..])
  }

  /** `np.atleast_2d(goal[-m:])` as written: the slice is taken along the
      first axis, which for a matrix goal is its rows, not its columns. */
  function GoalTailAsWritten(goal: Goal, m: nat): (r: Matrix)
    requires ValidGoal(goal)
    ensures goal.Grid? ==> r.rows == if m <= goal.m.rows then m else goal.m.rows
    ensures goal.Grid? ==> |r.cols| == |goal.m.cols|
  {
    match goal
    case Flat(v) =>
      var k := if m <= |v| then m else |v|;
      AtLeast2d(Flat(v[|v| - k..]))
    case Grid(g) =>
      var k := if m <= g.rows then m else g.rows;
      Matrix(k, seq(|g.cols|, j requires 0 <= j < |g.cols| => g.cols[j][g.rows - k..]))
  }

  /** For a flat goal the two slices agree. */
  lemma GoalTailAgreesOnFlat(v: seq<real>, m: nat)
    ensures GoalTailAsWritten(Flat(v), m) == GoalTail(Flat(v), m)
  {
    var k := if m <= |v| then m else |v|;
    var a := GoalTailAsWritten(Flat(v), m);
    var b := GoalTail(Flat(v), m);
    assert |a.cols| == |b.cols| == k;
    forall j | 0 <= j < k ensures a.cols[j] == b.cols[j] {
      assert a.cols[j] == [v[|v| - k..][j]];
      assert b.cols[j] == AtLeast2d(Flat(v)).cols[|v| - k + j];
    }
  }

  /** The part of `recede` shared by the written and the intended version:
      an inactive task is left alone, a task whose goal node is behind is
      cleared, any other task is shifted and its target reassigned with
      `constTarget` in constant mode. */
  function RecedeWith(t: CartesianTask, ks: int, asWritten: bool): (r: Outcome<CartesianTask>)
    requires ValidTask(t)
    ensures ValidTask(r.State())
    ensures t.active.None? ==> r == Done(t)
    ensures t.active.Some? && t.active.value.action.kGoal < 0 ==> r == Done(t.(active := None))
    ensures t.active.Some? && t.active.value.action.kGoal >= 0 ==>
      r.State() == ShiftActivation(t, ks).(target := r.State().target)
  {
    match t.active
    case None => Done(t)
    case Some(a) =>
      if a.action.kGoal < 0 then Done(t.(active := None))
      else
        var t1 := ShiftActivation(t, ks);
        var a1 := t1.active.value;
        if t.trajectoryMode then
          WithTarget(t1, SetPolynomialTrajectory(t1, a1.action.kStart, a1.nodes, a1.action.start, a1.action.goal, None))
        else if a1.nodes == [] then Done(t1)
        else
          var m := |a1.nodes|;
          var tail := if asWritten then GoalTailAsWritten(a.action.goal, m) else GoalTail(a.action.goal, m);
          WithTarget(t1, Assign(t1.target, tail, Some(a1.nodes)))
  }

  /** `CartesianTask.recede` as written. */
  function RecedeAsWritten(t: CartesianTask, ks: int): (r: Outcome<CartesianTask>)
    requires ValidTask(t)
    ensures ValidTask(r.State())
  {
    RecedeWith(t, ks, true)
  }

  /** `CartesianTask.recede` with the goal sliced by columns. */
  function Recede(t: CartesianTask, ks: int): (r: Outcome<CartesianTask>)
    requires ValidTask(t)
    ensures ValidTask(r.State())
    ensures t.active.None? ==> r == Done(t)
    ensures t.active.Some? && t.active.value.action.kGoal < 0 ==> r == Done(t.(active := None))
  {
    RecedeWith(t, ks, false)
  }

  /** A task whose goal node is not yet behind stays active and in the same
      mode; its window moves by `ks`, keeping only nodes at or after 0, and
      its constraint nodes follow the window. */
  lemma RecedeMovesWindow(t: CartesianTask, ks: int)
    requires ValidTask(t) && t.active.Some? && t.active.value.action.kGoal >= 0
    ensures var r := Recede(t, ks).State();
      r.active.Some? && r.trajectoryMode == t.trajectoryMode && r.constrNodes == r.active.value.nodes
    ensures var a1 := Recede(t, ks).State().active.value;
      (forall x :: x in a1.nodes <==> x >= 0 && x - ks in t.active.value.nodes) &&
      a1.action.kStart == t.active.value.action.kStart + ks &&
      a1.action.kGoal == t.active.value.action.kGoal + ks
  {
    RecedeShifts(t, ks);
  }

  lemma RecedeShifts(t: CartesianTask, ks: int)
    requires ValidTask(t) && t.active.Some? && t.active.value.action.kGoal >= 0
    ensures Recede(t, ks).State().active == ShiftActivation(t, ks).active
    ensures Recede(t, ks).State().constrNodes == ShiftActivation(t, ks).constrNodes
    ensures Recede(t, ks).State().trajectoryMode == t.trajectoryMode
  {
    assert Recede(t, ks) == RecedeWith(t, ks, false);
  }

  /** In constant mode with a goal of the target's dimension, the receded
      task succeeds and every node still ahead holds its goal column. */
  lemma RecedeConstantTarget(t: CartesianTask, ks: int)
    requires ValidTask(t) && t.active.Some? && !t.trajectoryMode
    requires t.active.value.action.kGoal >= 0
    requires AtLeast2d(t.active.value.action.goal).rows == t.target.dim
    ensures var r := Recede(t, ks);
      r.Done? && r.value.target.nodes == t.target.nodes &&
      forall k :: k in t.target.values ==>
        r.value.target.values[k] ==
          if k >= 0 && k - ks in t.active.value.nodes
          then GoalTail(t.active.value.action.goal, |r.value.active.value.nodes|)
          else t.target.values[k]
  {
    if ShiftActivation(t, ks).active.value.nodes != [] {
      RecedeConstantAhead(t, ks);
    } else {
      RecedeConstantNoneAhead(t, ks);
    }
  }

  lemma RecedeConstantAhead(t: CartesianTask, ks: int)
    requires ValidTask(t) && t.active.Some? && !t.trajectoryMode
    requires t.active.value.action.kGoal >= 0
    requires AtLeast2d(t.active.value.action.goal).rows == t.target.dim
    requires ShiftActivation(t, ks).active.value.nodes != []
    ensures var r := Recede(t, ks);
      r.Done? && r.value.target.nodes == t.target.nodes &&
      forall k :: k in t.target.values ==>
        r.value.target.values[k] ==
          if k >= 0 && k - ks in t.active.value.nodes
          then GoalTail(t.active.value.action.goal, |r.value.active.value.nodes|)
          else t.target.values[k]
  {
    var t1 := ShiftActivation(t, ks);
    var ns := t1.active.value.nodes;
    var o := Assign(t1.target, GoalTail(t.active.value.action.goal, |ns|), Some(ns));
    assert RecedeWith(t, ks, false) == WithTarget(t1, o);
    assert Recede(t, ks) == WithTarget(t1, o);
  }

  lemma RecedeConstantNoneAhead(t: CartesianTask, ks: int)
    requires ValidTask(t) && t.active.Some? && !t.trajectoryMode
    requires t.active.value.action.kGoal >= 0
    requires ShiftActivation(t, ks).active.value.nodes == []
    ensures var r := Recede(t, ks);
      r.Done? && r.value.target == t.target &&
      forall k :: k in t.target.values ==> !(k >= 0 && k - ks in t.active.value.nodes)
  {
    var t1 := ShiftActivation(t, ks);
    assert Recede(t, ks) == RecedeWith(t, ks, false) == Done(t1);
    forall k | k in t.target.values ensures !(k >= 0 && k - ks in t.active.value.nodes) {
      assert k !in t1.active.value.nodes;
    }
  }

  /** As written, a matrix goal loses rows instead of columns: once fewer
      nodes remain than the goal has rows, the reassignment raises. */
  lemma RecedeAsWrittenRaisesOnMatrixGoal(t: CartesianTask, ks: int)
    requires ValidTask(t) && t.active.Some? && !t.trajectoryMode
    requires t.active.value.action.kGoal >= 0 && t.active.value.action.goal.Grid?
    requires t.active.value.action.goal.m.rows == t.target.dim
    requires var m := |ShiftActivation(t, ks).active.value.nodes|; 0 < m < t.target.dim
    ensures RecedeAsWritten(t, ks).Raised? && Recede(t, ks).Done?
  {
  }

  /** A concrete instance: a task with a two-row goal over three nodes,
      active on nodes 0, 1 and 2 of a four-node problem. */
  function RowsExample(): CartesianTask {
    CartesianTask(4, NewParameter("tgt", 2, [0, 1, 2, 3]), [0, 1, 2],
      Some(Activation(Action(0, 3, [], Grid(Matrix(2, [[1.0, 2.0], [3.0, 4.0], [5.0, 6.0]]))), [0, 1, 2], 3)), false)
  }

  lemma RowsExampleValid()
    ensures ValidTask(RowsExample())
  {
  }

  /** Receded by two nodes, the example keeps only node 0 ahead. */
  lemma RowsExampleShift()
    requires ValidTask(RowsExample())
    ensures ShiftActivation(RowsExample(), -2).active.value.nodes == [0]
  {
    assert Shift([0, 1, 2], -2) == [-2, -1, 0];
  }

  /** Receding the example until one node is left: the written version raises,
      the intended one does not. */
  lemma RecedeRowsCounterexample()
    ensures ValidTask(RowsExample())
    ensures RecedeAsWritten(RowsExample(), -2).Raised? && Recede(RowsExample(), -2).Done?
  {
    RowsExampleValid();
    RowsExampleShift();
    RecedeAsWrittenRaisesOnMatrixGoal(RowsExample(), -2);
  }

  // ----- contact -----

  /** `nn` is the problem's node count; `friction` holds the nodes of the
      friction cost, the only node list the reset edits that is not set
      again right after; `force` is the contact force variable. */
  datatype Contact = Contact(
    nn: int,
    contactNodes: seq<int>,
    unilatNodes: seq<int>,
    friction: seq<int>,
    force: Variable)

  ghost predicate ValidContact(c: Contact) {
    Valid(c.force)
  }

  /** The list without the given nodes, order kept. */
  function RemoveNodes(s: seq<int>, nodes: seq<int>): (r: seq<int>)
    ensures forall k :: k in r <==> k in s && k !in nodes
  {
    Filter(s, k => k !in nodes)
  }

  lemma RemoveNodesIdempotent(s: seq<int>, nodes: seq<int>)
    ensures RemoveNodes(RemoveNodes(s, nodes), nodes) == RemoveNodes(s, nodes)
  {
    FilterKeepsAll(RemoveNodes(s, nodes), k => k !in nodes);
  }

  /** Two variables that differ at most in their records. */
  predicate SameButRecords(f: Variable, g: Variable) {
    f.name == g.name && f.dim == g.dim && f.kind == g.kind && f.nodes == g.nodes && f.offsets == g.offsets
      && f.gen == g.gen
  }

  /** One force record with its bounds overwritten: zero when `pin`, ±inf
      otherwise; symbol and initial guess kept. */
  function BoundRecord(rec: Record, dim: nat, pin: bool): (r: Record)
    ensures r.sym == rec.sym && r.w0 == rec.w0
    ensures pin ==> r.lb == Fill(dim, Fin(0.0)) && r.ub == Fill(dim, Fin(0.0))
    ensures !pin ==> r.lb == Fill(dim, NegInf) && r.ub == Fill(dim, PosInf)
  {
    if pin then rec.(lb := Fill(dim, Fin(0.0)), ub := Fill(dim, Fin(0.0)))
    else rec.(lb := Fill(dim, NegInf), ub := Fill(dim, PosInf))
  }

  /** The force as a contact leaves it: bounds zero on the `pinned` nodes
      and ±inf on every other node, everything else kept. This is what
      `setBounds(-inf, inf)` followed by `setBounds(0, 0, pinned)` leaves. */
  function BoundForce(f: Variable, pinned: set<int>): (r: Variable)
    requires Valid(f)
    ensures Valid(r) && SameButRecords(r, f) && r.impl.Keys == f.impl.Keys
    ensures forall k :: k in f.impl ==> r.impl[k] == BoundRecord(f.impl[k], f.dim, k in pinned)
  {
    f.(impl := map k | k in f.impl :: BoundRecord(f.impl[k], f.dim, k in pinned))
  }

  /** Bounding overwrites every bound: two forces that differ only in their
      bounds come out alike. */
  lemma BoundForceForgetsBounds(f: Variable, g: Variable, pinned: set<int>)
    requires Valid(f) && Valid(g) && SameButRecords(f, g) && g.impl.Keys == f.impl.Keys
    requires forall k :: k in f.impl ==> f.impl[k].sym == g.impl[k].sym && f.impl[k].w0 == g.impl[k].w0
    ensures BoundForce(f, pinned) == BoundForce(g, pinned)
  {
    var bf, bg := BoundForce(f, pinned), BoundForce(g, pinned);
    forall k | k in bf.impl ensures bf.impl[k] == bg.impl[k] {
      BoundRecordForgets(f.impl[k], g.impl[k], f.dim, k in pinned);
    }
    assert bf.impl == bg.impl;
  }

  lemma BoundRecordForgets(a: Record, b: Record, dim: nat, pin: bool)
    requires a.sym == b.sym && a.w0 == b.w0
    ensures BoundRecord(a, dim, pin) == BoundRecord(b, dim, pin)
  {
  }

  /** Force bounds of ±inf on every node. */
  function FreeForce(f: Variable): (r: Variable)
    requires Valid(f)
    ensures Valid(r) && SameButRecords(r, f) && r.impl.Keys == f.impl.Keys
    ensures forall k :: k in f.impl ==> r.impl[k].sym == f.impl[k].sym && r.impl[k].w0 == f.impl[k].w0
    ensures forall k :: k in f.impl ==>
      r.impl[k].lb == Fill(f.dim, NegInf) && r.impl[k].ub == Fill(f.dim, PosInf)
  {
    BoundForce(f, {})
  }

  lemma FreeForceIdempotent(f: Variable)
    requires Valid(f)
    ensures FreeForce(FreeForce(f)) == FreeForce(f)
  {
    BoundForceForgetsBounds(FreeForce(f), f, {});
  }

  /** `_reset_constraints_and_force`, with costs losing the given nodes by
      value: every force bound becomes ±inf on every node. */
  function ResetConstraintsAndForce(c: Contact, nodes: seq<int>): (r: Contact)
    requires ValidContact(c)
    ensures ValidContact(r) && r.nn == c.nn && r.force.dim == c.force.dim
    ensures r.contactNodes == c.contactNodes && r.unilatNodes == c.unilatNodes
    ensures r.friction == RemoveNodes(c.friction, nodes)
    ensures r.force == FreeForce(c.force)
  {
    c.(friction := RemoveNodes(c.friction, nodes), force := FreeForce(c.force))
  }

  /** The list with the given nodes up to `cap` appended that it does not
      already hold, in the order given. */
  function AppendMissing(list: seq<int>, nodes: seq<int>, cap: int): (r: seq<int>)
    ensures list <= r
    ensures forall k :: k in r <==> k in list || (k in nodes && k <= cap)
  {
    list + Filter(nodes, k => k !in list && k <= cap)
  }

  /** Appending the same nodes again appends nothing. */
  lemma AppendMissingIdempotent(list: seq<int>, nodes: seq<int>, cap: int)
    ensures AppendMissing(AppendMissing(list, nodes, cap), nodes, cap) == AppendMissing(list, nodes, cap)
  {
    var l1 := AppendMissing(list, nodes, cap);
    FilterKeepsNone(nodes, k => k !in l1 && k <= cap);
  }

  /** `Contact.active(nodes, 1)`: after the reset, the nodes not yet present
      are appended, to the contact list up to `nn - 1` and to the unilateral
      list below it; the force is left free everywhere. */
  function ActiveOn(c: Contact, nodes: seq<int>): (r: Contact)
    requires ValidContact(c)
    ensures ValidContact(r) && r.nn == c.nn && r.friction == RemoveNodes(c.friction, nodes)
    ensures c.contactNodes <= r.contactNodes && c.unilatNodes <= r.unilatNodes
    ensures forall k :: k in r.contactNodes <==> k in c.contactNodes || (k in nodes && k <= c.nn - 1)
    ensures forall k :: k in r.unilatNodes <==> k in c.unilatNodes || (k in nodes && k < c.nn - 1)
    ensures r.force == FreeForce(c.force)
  {
    c.(contactNodes := AppendMissing(c.contactNodes, nodes, c.nn - 1),
       unilatNodes := AppendMissing(c.unilatNodes, nodes, c.nn - 2),
       friction := RemoveNodes(c.friction, nodes),
       force := FreeForce(c.force))
  }

  /** The force bounds of `active(nodes, 0)`: zero on the switched-off nodes
      in `[0, nn - 1)`, free on every other node. */
  function PinForce(f: Variable, nodes: seq<int>, nn: int): (r: Variable)
    requires Valid(f)
    ensures Valid(r) && SameButRecords(r, f) && r.impl.Keys == f.impl.Keys
    ensures forall k :: k in f.impl ==> r.impl[k].sym == f.impl[k].sym && r.impl[k].w0 == f.impl[k].w0
    ensures forall k :: k in f.impl ==>
      if k in nodes && 0 <= k < nn - 1
      then r.impl[k].lb == Fill(f.dim, Fin(0.0)) && r.impl[k].ub == Fill(f.dim, Fin(0.0))
      else r.impl[k].lb == Fill(f.dim, NegInf) && r.impl[k].ub == Fill(f.dim, PosInf)
  {
    BoundForce(f, set k | k in nodes && 0 <= k < nn - 1)
  }

  /** Pinning a freed force is pinning it directly. */
  lemma PinAfterFree(f: Variable, nodes: seq<int>, nn: int)
    requires Valid(f)
    ensures PinForce(FreeForce(f), nodes, nn) == PinForce(f, nodes, nn)
  {
    BoundForceForgetsBounds(FreeForce(f), f, set k | k in nodes && 0 <= k < nn - 1);
  }

  /** `Contact.active(nodes, 0)`: after the reset, the nodes leave both lists
      (the contact list also loses anything past `nn - 1`) and the force is
      pinned to zero on those of them in `[0, nn - 1)`. */
  function ActiveOff(c: Contact, nodes: seq<int>): (r: Contact)
    requires ValidContact(c)
    ensures ValidContact(r) && r.nn == c.nn && r.friction == RemoveNodes(c.friction, nodes)
    ensures forall k :: k in r.contactNodes <==> k in c.contactNodes && k !in nodes && k <= c.nn - 1
    ensures forall k :: k in r.unilatNodes <==> k in c.unilatNodes && k !in nodes
    ensures r.force == PinForce(c.force, nodes, c.nn)
  {
    var c1 := ResetConstraintsAndForce(c, nodes);
    c1.(contactNodes := Filter(c.contactNodes, k => k !in nodes && k <= c.nn - 1),
        unilatNodes := Filter(c.unilatNodes, k => k !in nodes),
        force := PinForce(c.force, nodes, c.nn))
  }

  /** `Contact.active(nodes, on)`: 1 switches the nodes on, 0 off, and any
      other flag only resets the friction nodes and the force bounds. */
  function Active(c: Contact, nodes: seq<int>, on: int): (r: Contact)
    requires ValidContact(c)
    ensures ValidContact(r) && r.friction == RemoveNodes(c.friction, nodes)
    ensures on == 1 ==> r == ActiveOn(c, nodes)
    ensures on == 0 ==> r == ActiveOff(c, nodes)
    ensures on != 1 && on != 0 ==> r.contactNodes == c.contactNodes && r.unilatNodes == c.unilatNodes
    ensures on != 1 && on != 0 ==>
      r.force == FreeForce(c.force)
  {
    if on == 1 then ActiveOn(c, nodes)
    else if on == 0 then ActiveOff(c, nodes)
    else ResetConstraintsAndForce(c, nodes)
  }

  // ----- the reset as written -----

  /** Whether `np.delete` accepts every entry of `pos` as a position into an
      array of length `len`: from NumPy 1.19 on, one outside `[-len, len)`
      raises IndexError. */
  predicate PositionsIn(pos: seq<int>, len: nat) {
    forall p :: p in pos ==> -(len as int) <= p < len
  }

  /** Position `i` of an array of length `len` is named by `pos`, counted
      from the front or from the back. */
  predicate DeletedAt(i: nat, len: nat, pos: seq<int>) {
    i in pos || (i as int) - len in pos
  }

  /** `np.delete(s, pos)`: `s` without the elements at the given positions. */
  function DeletePositions(s: seq<int>, pos: seq<int>): (r: seq<int>)
    ensures forall x :: x in r <==> exists i :: 0 <= i < |s| && s[i] == x && !DeletedAt(i, |s|, pos)
  {
    DeleteFrom(s, pos, 0)
  }

  function DeleteFrom(s: seq<int>, pos: seq<int>, i: nat): (r: seq<int>)
    requires i <= |s|
    ensures forall x :: x in r <==> exists j :: i <= j < |s| && s[j] == x && !DeletedAt(j, |s|, pos)
    decreases |s| - i
  {
    if i == |s| then []
    else (if DeletedAt(i, |s|, pos) then [] else [s[i]]) + DeleteFrom(s, pos, i + 1)
  }

  /** On a list that holds its own positions, `0..n` in order, deleting by
      position and removing by value agree for non-negative positions. */
  lemma DeleteOnRangeIsRemove(n: nat, pos: seq<int>)
    requires forall p :: p in pos ==> p >= 0
    ensures DeletePositions(Range(0, n), pos) == RemoveNodes(Range(0, n), pos)
  {
    DeleteFromRange(n, pos, 0);
    assert Range(0, n)[0..] == Range(0, n);
  }

  lemma {:induction false} DeleteFromRange(n: nat, pos: seq<int>, i: nat)
    requires forall p :: p in pos ==> p >= 0
    requires i <= n
    ensures DeleteFrom(Range(0, n), pos, i) == Filter(Range(0, n)[i..], k => k !in pos)
    decreases n - i
  {
    var s := Range(0, n);
    if i < n {
      DeleteFromRange(n, pos, i + 1);
      assert s[i] == i;
      assert !DeletedAt(i, n, pos) <==> i !in pos;
      assert s[i..][0] == s[i] && s[i..][1..] == s[i + 1..];
    }
  }

  /** `_reset_constraints_and_force` as written, when both barrier costs are
      `RecedingCost` objects and NumPy is 1.19 or later: each cost's node
      array goes through `np.delete(current, nodes)`, which reads `nodes` as
      positions and raises at one out of range. The unilateral cost holds
      the unilateral list last given to it; what the deletion leaves there is
      overwritten by the `setNodes` that follows in `active`, so only whether
      it raises matters. */
  function ResetAsWritten(c: Contact, nodes: seq<int>): (r: Outcome<Contact>)
    requires ValidContact(c)
    ensures r.Raised? <==> !PositionsIn(nodes, |c.unilatNodes|) || !PositionsIn(nodes, |c.friction|)
    ensures r.Raised? ==> r.error == PositionOutOfRange && r.partial == c
    ensures r.Done? ==> r.value.friction == DeletePositions(c.friction, nodes)
    ensures r.Done? ==> r.value.force == FreeForce(c.force)
    ensures r.State().contactNodes == c.contactNodes && r.State().unilatNodes == c.unilatNodes
  {
    if !PositionsIn(nodes, |c.unilatNodes|) || !PositionsIn(nodes, |c.friction|) then
      Raised(PositionOutOfRange, c)
    else
      Done(c.(friction := DeletePositions(c.friction, nodes), force := FreeForce(c.force)))
  }

  /** `Contact.active` as written: the reset comes first, so a raise there
      leaves the contact as it was; otherwise the node lists and the force
      are those of the corrected `Active`, and the friction cost keeps what
      the positional deletion left. */
  function ActiveAsWritten(c: Contact, nodes: seq<int>, on: int): (r: Outcome<Contact>)
    requires ValidContact(c)
    ensures r.Raised? <==> ResetAsWritten(c, nodes).Raised?
    ensures r.Raised? ==> r.error == PositionOutOfRange && r.partial == c
    ensures r.Done? ==> r.value == Active(c, nodes, on).(friction := DeletePositions(c.friction, nodes))
  {
    match ResetAsWritten(c, nodes)
    case Raised(e, p) => Raised(e, p)
    case Done(_) => Done(Active(c, nodes, on).(friction := DeletePositions(c.friction, nodes)))
  }

  /** The friction cost is created without nodes and no line gives it any,
      so as written every `active` call on some nodes raises. */
  lemma ActiveAsWrittenRaises(c: Contact, nodes: seq<int>, on: int)
    requires ValidContact(c) && c.friction == [] && nodes != []
    ensures ActiveAsWritten(c, nodes, on).Raised?
  {
    var p := nodes[0];
    assert p in nodes && !(-(|c.friction| as int) <= p < |c.friction|);
    assert !PositionsIn(nodes, |c.friction|);
    assert ResetAsWritten(c, nodes).Raised?;
  }

  /** Without nodes, the written and the corrected `active` agree. */
  lemma ActiveAsWrittenWithoutNodes(c: Contact, on: int)
    requires ValidContact(c)
    ensures ActiveAsWritten(c, [], on) == Done(Active(c, [], on))
  {
    assert PositionsIn([], |c.unilatNodes|) && PositionsIn([], |c.friction|);
    assert ResetAsWritten(c, []).Done?;
    assert DeletePositions(c.friction, []) == c.friction by {
      DeleteNothing(c.friction, 0);
      assert c.friction[0..] == c.friction;
    }
    assert Active(c, [], on).friction == c.friction by {
      FilterKeepsAll(c.friction, k => k !in []);
    }
  }

  lemma {:induction false} DeleteNothing(s: seq<int>, i: nat)
    requires i <= |s|
    ensures DeleteFrom(s, [], i) == s[i..]
    decreases |s| - i
  {
    if i < |s| {
      DeleteNothing(s, i + 1);
      assert s[i..] == [s[i]] + s[i + 1..];
    }
  }

  /** The corrected reset keeps a friction list that starts empty empty. */
  lemma ActiveKeepsFrictionEmpty(c: Contact, nodes: seq<int>, on: int)
    requires ValidContact(c) && c.friction == []
    ensures Active(c, nodes, on).friction == []
  {
  }

  /** Switching the same nodes on twice changes nothing the second time. */
  lemma ActiveOnIdempotent(c: Contact, nodes: seq<int>)
    requires ValidContact(c)
    ensures ActiveOn(ActiveOn(c, nodes), nodes) == ActiveOn(c, nodes)
  {
    ActiveOnListsAgain(c, nodes);
    ActiveOnForceAgain(c, nodes);
  }

  lemma ActiveOnListsAgain(c: Contact, nodes: seq<int>)
    requires ValidContact(c)
    ensures var c1 := ActiveOn(c, nodes); var c2 := ActiveOn(c1, nodes);
      c2.contactNodes == c1.contactNodes && c2.unilatNodes == c1.unilatNodes && c2.friction == c1.friction
  {
    ActiveOnContactAgain(c, nodes);
    ActiveOnUnilatAgain(c, nodes);
    RemoveNodesIdempotent(c.friction, nodes);
  }

  lemma ActiveOnContactAgain(c: Contact, nodes: seq<int>)
    requires ValidContact(c)
    ensures ActiveOn(ActiveOn(c, nodes), nodes).contactNodes == ActiveOn(c, nodes).contactNodes
  {
    var c1 := ActiveOn(c, nodes);
    var l1 := AppendMissing(c.contactNodes, nodes, c.nn - 1);
    assert c1.contactNodes == l1 && c1.nn == c.nn by { ActiveOnList(c, nodes); }
    assert ActiveOn(c1, nodes).contactNodes == AppendMissing(l1, nodes, c.nn - 1) by { ActiveOnList(c1, nodes); }
    AppendMissingIdempotent(c.contactNodes, nodes, c.nn - 1);
  }

  lemma ActiveOnUnilatAgain(c: Contact, nodes: seq<int>)
    requires ValidContact(c)
    ensures ActiveOn(ActiveOn(c, nodes), nodes).unilatNodes == ActiveOn(c, nodes).unilatNodes
  {
    var c1 := ActiveOn(c, nodes);
    var l1 := AppendMissing(c.unilatNodes, nodes, c.nn - 2);
    assert c1.unilatNodes == l1 && c1.nn == c.nn by { ActiveOnList(c, nodes); }
    assert ActiveOn(c1, nodes).unilatNodes == AppendMissing(l1, nodes, c.nn - 2) by { ActiveOnList(c1, nodes); }
    AppendMissingIdempotent(c.unilatNodes, nodes, c.nn - 2);
  }

  lemma ActiveOnList(c: Contact, nodes: seq<int>)
    requires ValidContact(c)
    ensures ActiveOn(c, nodes).contactNodes == AppendMissing(c.contactNodes, nodes, c.nn - 1)
    ensures ActiveOn(c, nodes).unilatNodes == AppendMissing(c.unilatNodes, nodes, c.nn - 2)
  {
  }

  lemma ActiveOnForceAgain(c: Contact, nodes: seq<int>)
    requires ValidContact(c)
    ensures ActiveOn(ActiveOn(c, nodes), nodes).force == ActiveOn(c, nodes).force
  {
    FreeForceIdempotent(c.force);
  }

  /** Switching nodes off after switching them on leaves the lists holding
      the nodes that switching off alone leaves. */
  lemma ActiveOffUndoesOnLists(c: Contact, nodes: seq<int>)
    requires ValidContact(c)
    ensures var r, off := ActiveOff(ActiveOn(c, nodes), nodes), ActiveOff(c, nodes);
      && (forall k :: k in r.contactNodes <==> k in off.contactNodes)
      && (forall k :: k in r.unilatNodes <==> k in off.unilatNodes)
  {
  }

  /** ... and the same force bounds and friction nodes. */
  lemma ActiveOffUndoesOnForce(c: Contact, nodes: seq<int>)
    requires ValidContact(c)
    ensures var r, off := ActiveOff(ActiveOn(c, nodes), nodes), ActiveOff(c, nodes);
      r.force == off.force && r.friction == off.friction
  {
    PinAfterFree(c.force, nodes, c.nn);
    RemoveNodesIdempotent(c.friction, nodes);
  }

  /** One list under `Contact.recede(ks)`: every node moves by `ks`, the
      newly revealed `last` node is appended, and only nodes after 0 stay. */
  function RecedeList(list: seq<int>, ks: int, last: int): (r: seq<int>)
    ensures forall k :: k in r <==> k > 0 && (k - ks in list || k == last)
  {
    var moved := Shift(list, ks) + [last];
    forall k ensures k in moved <==> k - ks in list || k == last {
      ShiftMember(list, ks, k);
    }
    Filter(moved, x => x > 0)
  }

  /** Two variables that differ at most in the bounds of their records. */
  predicate SameButBounds(f: Variable, g: Variable) {
    && SameButRecords(f, g)
    && f.impl.Keys == g.impl.Keys
    && forall n :: n in f.impl ==> f.impl[n].sym == g.impl[n].sym && f.impl[n].w0 == g.impl[n].w0
  }

  /** `Contact.recede(ks)`: the contact list gains node `nn - 1`, the
      unilateral list node `nn - 2`, both shifted and cut at 0. The force
      bounds are moved by `misc.shift_array`, which is not part of this
      model: its result comes in as `shifted`, the force with new bounds and
      nothing else changed. The friction cost is untouched. */
  function RecedeContact(c: Contact, ks: int, shifted: Variable): (r: Contact)
    requires ValidContact(c)
    requires Valid(shifted) && SameButBounds(shifted, c.force)
    ensures ValidContact(r) && r.friction == c.friction && r.nn == c.nn
    ensures r.force == shifted
    ensures r.contactNodes == RecedeList(c.contactNodes, ks, c.nn - 1)
    ensures r.unilatNodes == RecedeList(c.unilatNodes, ks, c.nn - 2)
  {
    c.(contactNodes := RecedeList(c.contactNodes, ks, c.nn - 1),
       unilatNodes := RecedeList(c.unilatNodes, ks, c.nn - 2),
       force := shifted)
  }
}

=== FILE: variables.dfy ===
/** The node-indexed variable store: a variable projected onto an ordered list
    of horizon nodes, one `{lb, ub, w0}` record per node; read-only offset
    views onto it; node-independent single variables; node-dependent
    parameters. Symbolic instances are opaque `Symbol` handles. */
module Variables {
  import opened Common
  import opened NodeLists

  /** Opaque handle of the symbolic instance created for one node. Every
      `cs.SX.sym` call yields a new object; `gen` is the projection batch
      that created it, so a symbol created later never equals an older one. */
  datatype Symbol = Symbol(tag: string, node: int, gen: nat)

  datatype Field = Lb | Ub | W0

  /** What a variable keeps per node: its symbol, bounds and initial guess. */
  datatype Record = Record(sym: Symbol, lb: Vec, ub: Vec, w0: Vec) {
    function Get(f: Field): Vec {
      match f
      case Lb => lb
      case Ub => ub
      case W0 => w0
    }

    function With(f: Field, v: Vec): Record {
      match f
      case Lb => this.(lb := v)
      case Ub => this.(ub := v)
      case W0 => this.(w0 := v)
    }
  }

  ghost predicate RecordDim(r: Record, dim: nat) {
    |r.lb| == dim && |r.ub| == dim && |r.w0| == dim
  }

  lemma GetDim(r: Record, dim: nat, f: Field)
    requires RecordDim(r, dim)
    ensures |r.Get(f)| == dim
  {
  }

  /** The record a node receives when it first appears: a new symbol of batch
      `gen`, unbounded, guess 0. */
  function DefaultRecord(tag: string, dim: nat, n: int, gen: nat): Record {
    Record(Symbol(tag, n, gen), Fill(dim, NegInf), Fill(dim, PosInf), Fill(dim, Fin(0.0)))
  }

  /** Plain `Variable`, `StateVariable` or `InputVariable`. */
  datatype Kind = Plain | State | Input

  /** A read-only alias of variable `parent` shifted by `offset` nodes. It owns
      no records: every read goes to the parent's current records. */
  datatype OffsetView = OffsetView(parent: string, dim: nat, offset: int)

  datatype Variable = Variable(
    name: string,
    dim: nat,
    kind: Kind,
    nodes: seq<int>,                  // active nodes, as last set
    impl: map<int, Record>,           // one record per active node
    offsets: map<int, OffsetView>,    // views handed out so far, by offset
    gen: nat)                         // the batch the next new symbols belong to

  /** Every active node has exactly one record of the right dimension, and
      every cached view points back at this variable with its own offset. */
  ghost predicate Valid(v: Variable) {
    && (forall n :: n in v.nodes <==> n in v.impl)
    && (forall n :: n in v.impl ==> RecordDim(v.impl[n], v.dim))
    && (forall o :: o in v.offsets ==> v.offsets[o] == OffsetView(v.name, v.dim, o))
  }

  /** Every symbol the variable holds was created in a batch before `gen`.
      A new variable has this, and reprojecting and the setters keep it. */
  ghost predicate SymbolsBefore(v: Variable) {
    forall n :: n in v.impl ==> v.impl[n].sym.gen < v.gen
  }

  /** The nodes of `ns` that have no record yet. */
  function NewNodes(v: Variable, ns: seq<int>): (r: set<int>)
    ensures forall n :: n in r <==> n in ns && n !in v.impl
  {
    set n | n in ns && n !in v.impl
  }

  /** Rebuilds the records for node list `ns` (`Variable._project`): a node
      that already has a record keeps it, symbol included; every other node
      gets a new symbol, distinct from every symbol the variable held. */
  function Project(v: Variable, ns: seq<int>): (r: Variable)
    requires Valid(v)
    ensures Valid(r)
    ensures r.nodes == ns
    ensures forall n :: n in r.impl <==> n in ns
    ensures r.name == v.name && r.dim == v.dim && r.kind == v.kind && r.offsets == v.offsets
    ensures forall n :: n in ns && n in v.impl ==> r.impl[n] == v.impl[n]
    ensures forall n :: n in ns && n !in v.impl ==> r.impl[n] == DefaultRecord(v.name, v.dim, n, v.gen)
    ensures SymbolsBefore(v) ==> SymbolsBefore(r)
    ensures SymbolsBefore(v) ==> forall n, k :: n in ns && n !in v.impl && k in v.impl ==> r.impl[n].sym != v.impl[k].sym
    ensures v.gen <= r.gen
    ensures (forall n :: n in ns ==> n in v.impl) ==> r.gen == v.gen
  {
    v.(nodes := ns,
       impl := map n | n in ns :: if n in v.impl then v.impl[n] else DefaultRecord(v.name, v.dim, n, v.gen),
       gen := if NewNodes(v, ns) == {} then v.gen else v.gen + 1)
  }

  /** A new variable, each node with a default record. A node list given as
      a Python list (`isList`) is sorted first; any other container of nodes
      (an array, a tuple, a range) keeps the order it was given in. */
  function NewVariable(name: string, dim: nat, kind: Kind, nodes: seq<int>, isList: bool): (r: Variable)
    ensures Valid(r)
    ensures r.name == name && r.dim == dim && r.kind == kind && r.offsets == map[]
    ensures SymbolsBefore(r)
    ensures multiset(r.nodes) == multiset(nodes)
    ensures isList ==> Sorted(r.nodes)
    ensures !isList ==> r.nodes == nodes
    ensures forall n :: n in r.impl <==> n in nodes
    ensures forall n :: n in r.impl ==> r.impl[n] == DefaultRecord(name, dim, n, 0)
  {
    var empty := Variable(name, dim, kind, [], map[], map[], 0);
    var given := if isList then Sort(nodes) else nodes;
    assert forall n :: n in given <==> n in nodes by {
      forall n ensures n in given <==> n in nodes {
        assert n in given <==> n in multiset(given);
        assert n in nodes <==> n in multiset(nodes);
      }
    }
    Project(empty, given)
  }

  /** The nodes a setter writes: all active nodes when `nodes` is None,
      otherwise the active nodes that were requested. */
  function Selected(v: Variable, nodes: Option<seq<int>>): (r: seq<int>)
    ensures forall n :: n in r <==> n in v.nodes && (nodes.None? || n in nodes.value)
  {
    match nodes
    case None => v.nodes
    case Some(req) => CheckNodes(req, v.nodes)
  }

  /** `setLowerBounds` / `setUpperBounds` / `setInitialGuess`: raise when the
      value length is not `dim`, otherwise write `vals` into field `f` of the
      selected nodes and nothing else. */
  function SetField(v: Variable, f: Field, vals: Vec, nodes: Option<seq<int>>): (r: Outcome<Variable>)
    requires Valid(v)
    ensures r.Raised? <==> |vals| != v.dim
    ensures r.Raised? ==> r.error == WrongDimension && r.partial == v
    ensures r.Done? ==> Valid(r.value)
    ensures r.Done? ==> r.value.nodes == v.nodes && r.value.impl.Keys == v.impl.Keys
    ensures r.Done? ==> r.value.name == v.name && r.value.dim == v.dim && r.value.kind == v.kind
    ensures r.Done? ==> r.value.offsets == v.offsets && r.value.gen == v.gen
    ensures r.Done? ==> forall n :: n in v.impl && n in v.nodes && (nodes.None? || n in nodes.value) ==>
      r.value.impl[n] == v.impl[n].With(f, vals)
    ensures r.Done? ==> forall n :: n in v.impl && !(nodes.None? || n in nodes.value) ==>
      r.value.impl[n] == v.impl[n]
  {
    var sel := Selected(v, nodes);
    if |vals| != v.dim then Raised(WrongDimension, v)
    else Done(v.(impl := map n | n in v.impl :: if n in sel then v.impl[n].With(f, vals) else v.impl[n]))
  }

  /** `setBounds`: the lower bounds are written first; if only the upper
      bounds have the wrong length the lower ones stay written. */
  function SetBounds(v: Variable, lb: Vec, ub: Vec, nodes: Option<seq<int>>): (r: Outcome<Variable>)
    requires Valid(v)
    ensures r.Done? <==> |lb| == v.dim && |ub| == v.dim
    ensures |lb| != v.dim ==> r.State() == v
    ensures |lb| == v.dim && |ub| != v.dim ==> r.State() == SetField(v, Lb, lb, nodes).value
    ensures r.Done? ==> Valid(r.value) && r.value.nodes == v.nodes && r.value.impl.Keys == v.impl.Keys
    ensures r.Done? ==> r.value.name == v.name && r.value.dim == v.dim && r.value.kind == v.kind
    ensures r.Done? ==> r.value.offsets == v.offsets
    ensures r.Done? ==> forall n :: n in v.impl ==>
      r.value.impl[n] ==
        (if n in v.nodes && (nodes.None? || n in nodes.value)
         then v.impl[n].(lb := lb, ub := ub) else v.impl[n])
  {
    match SetField(v, Lb, lb, nodes)
    case Raised(e, p) => Raised(e, p)
    case Done(v1) => SetField(v1, Ub, ub, nodes)
  }

  /** Where the i-th block of `dim` numbers starts: `i * dim`, counted up
      block by block. */
  function BlockStart(i: nat, dim: nat): nat {
    if i == 0 then 0 else BlockStart(i - 1, dim) + dim
  }

  lemma {:induction false} BlockStartIsProduct(i: nat, dim: nat)
    ensures BlockStart(i, dim) == i * dim
  {
    if i > 0 {
      BlockStartIsProduct(i - 1, dim);
      MulSucc(dim, i - 1);
    }
  }

  /** Every listed node has a record of dimension `dim`. */
  ghost predicate AllRecorded(impl: map<int, Record>, sel: seq<int>, dim: nat) {
    forall i :: 0 <= i < |sel| ==> sel[i] in impl && RecordDim(impl[sel[i]], dim)
  }

  /** The records of `sel`, field `f`, flattened one after another
      (`np.hstack`). */
  function Gather(impl: map<int, Record>, sel: seq<int>, f: Field, dim: nat): (r: Vec)
    requires AllRecorded(impl, sel, dim)
    ensures |r| == BlockStart(|sel|, dim)
  {
    GatherFrom(impl, sel, f, dim, 0)
  }

  /** The records of `sel[from..]`, flattened. */
  function GatherFrom(impl: map<int, Record>, sel: seq<int>, f: Field, dim: nat, from: nat): (r: Vec)
    requires AllRecorded(impl, sel, dim) && from <= |sel|
    ensures |r| == BlockStart(|sel| - from, dim)
    decreases |sel| - from
  {
    if from == |sel| then []
    else
      GetDim(impl[sel[from]], dim, f);
      impl[sel[from]].Get(f) + GatherFrom(impl, sel, f, dim, from + 1)
  }

  lemma MulSucc(a: int, b: int)
    ensures a * (b + 1) == a * b + a
  {
  }

  /** The i-th block of `dim` numbers of a gathered field is node sel[i]'s. */
  lemma GatherBlock(impl: map<int, Record>, sel: seq<int>, f: Field, dim: nat, i: nat)
    requires AllRecorded(impl, sel, dim) && i < |sel|
    ensures BlockStart(i, dim) + dim <= |Gather(impl, sel, f, dim)|
    ensures Gather(impl, sel, f, dim)[BlockStart(i, dim) .. BlockStart(i, dim) + dim] == impl[sel[i]].Get(f)
  {
    GatherFromBlock(impl, sel, f, dim, 0, i);
  }

  lemma {:induction false} GatherFromBlock(impl: map<int, Record>, sel: seq<int>, f: Field, dim: nat, from: nat, i: nat)
    requires AllRecorded(impl, sel, dim) && from <= i < |sel|
    ensures BlockStart(i - from, dim) + dim <= |GatherFrom(impl, sel, f, dim, from)|
    ensures GatherFrom(impl, sel, f, dim, from)[BlockStart(i - from, dim) .. BlockStart(i - from, dim) + dim] == impl[sel[i]].Get(f)
    decreases i - from
  {
    var g := GatherFrom(impl, sel, f, dim, from);
    var b := BlockStart(i - from, dim);
    GatherFromSplit(impl, sel, f, dim, from);
    if i == from {
      assert b == 0;
      assert g[0..dim] == g[..dim];
    } else {
      var rest := GatherFrom(impl, sel, f, dim, from + 1);
      GatherFromBlock(impl, sel, f, dim, from + 1, i);
      var j := BlockStart(i - (from + 1), dim);
      assert b == dim + j;
      assert rest[j .. j + dim] == impl[sel[i]].Get(f);
      assert g[dim..][j .. j + dim] == impl[sel[i]].Get(f);
      SliceOfSlice(g, dim, j, j + dim);
    }
  }

  /** A gathered list is the first node's block followed by the rest. */
  lemma GatherFromSplit(impl: map<int, Record>, sel: seq<int>, f: Field, dim: nat, from: nat)
    requires AllRecorded(impl, sel, dim) && from < |sel|
    ensures var g := GatherFrom(impl, sel, f, dim, from);
      && dim <= |g|
      && g[..dim] == impl[sel[from]].Get(f)
      && g[dim..] == GatherFrom(impl, sel, f, dim, from + 1)
  {
    GetDim(impl[sel[from]], dim, f);
  }

  lemma SliceOfSlice<T>(s: seq<T>, a: nat, x: nat, y: nat)
    requires x <= y && a + y <= |s|
    ensures s[a..][x..y] == s[a + x .. a + y]
  {
  }

  /** Every listed active node has a record of the variable's dimension. */
  lemma RecordsOf(v: Variable, sel: seq<int>)
    requires Valid(v)
    requires forall k :: k in sel ==> k in v.nodes
    ensures AllRecorded(v.impl, sel, v.dim)
  {
    forall i | 0 <= i < |sel| ensures sel[i] in v.impl && RecordDim(v.impl[sel[i]], v.dim) {
      var x := sel[i];
      assert x in sel;
      assert x in v.impl;
    }
  }

  /** `_getVals`: the requested field of the requested active nodes,
      concatenated in the order of the active node list. When no active node
      is requested, `np.hstack` receives an empty list and raises. */
  function GetVals(v: Variable, f: Field, nodes: Option<seq<int>>): (r: Outcome<Vec>)
    requires Valid(v)
    ensures r.Raised? <==> forall n :: n in v.nodes ==> nodes.Some? && n !in nodes.value
    ensures r.Raised? ==> r.error == NothingToStack
  {
    var req := if nodes.None? then v.nodes else nodes.value;
    var sel := CheckNodes(req, v.nodes);
    if sel == [] then
      assert forall n :: n in v.nodes ==> nodes.Some? && n !in nodes.value by {
        forall n | n in v.nodes ensures nodes.Some? && n !in nodes.value {
          assert n !in sel;
        }
      }
      Raised(NothingToStack, [])
    else
      var x := sel[0];
      assert x in sel && x in v.nodes && (nodes.None? || x in nodes.value);
      RecordsOf(v, sel);
      Done(Gather(v.impl, sel, f, v.dim))
  }

  /** `getImplDim`: dimension times the number of active nodes. */
  function ImplDim(v: Variable): nat {
    v.dim * |v.nodes|
  }

  /** A read that does not raise returns, block after block of `dim`
      numbers, the field of each selected node: the requested active nodes,
      in the order of the active node list. */
  lemma GetValsBlocks(v: Variable, f: Field, nodes: Option<seq<int>>)
    requires Valid(v) && GetVals(v, f, nodes).Done?
    ensures var sel, r := Selected(v, nodes), GetVals(v, f, nodes).value;
      |r| == |sel| * v.dim &&
      forall i :: 0 <= i < |sel| ==>
        sel[i] in v.impl && BlockStart(i, v.dim) + v.dim <= |r| &&
        r[BlockStart(i, v.dim) .. BlockStart(i, v.dim) + v.dim] == v.impl[sel[i]].Get(f)
  {
    GetValsIsGather(v, f, nodes);
    GatherBlocks(v.impl, Selected(v, nodes), f, v.dim);
  }

  /** Every block of a gather, at once. */
  lemma GatherBlocks(impl: map<int, Record>, sel: seq<int>, f: Field, dim: nat)
    requires AllRecorded(impl, sel, dim)
    ensures var r := Gather(impl, sel, f, dim);
      |r| == |sel| * dim &&
      forall i :: 0 <= i < |sel| ==>
        sel[i] in impl && BlockStart(i, dim) + dim <= |r| &&
        r[BlockStart(i, dim) .. BlockStart(i, dim) + dim] == impl[sel[i]].Get(f)
  {
    BlockStartIsProduct(|sel|, dim);
    forall i | 0 <= i < |sel|
      ensures sel[i] in impl && BlockStart(i, dim) + dim <= |Gather(impl, sel, f, dim)|
      ensures Gather(impl, sel, f, dim)[BlockStart(i, dim) .. BlockStart(i, dim) + dim] == impl[sel[i]].Get(f)
    {
      GatherBlock(impl, sel, f, dim, i);
    }
  }

  lemma GetValsIsGather(v: Variable, f: Field, nodes: Option<seq<int>>)
    requires Valid(v) && GetVals(v, f, nodes).Done?
    ensures AllRecorded(v.impl, Selected(v, nodes), v.dim)
    ensures GetVals(v, f, nodes).value == Gather(v.impl, Selected(v, nodes), f, v.dim)
  {
    if nodes.None? {
      CheckNodesAll(v.nodes);
    }
    RecordsOf(v, Selected(v, nodes));
  }

  /** Reading a field on all nodes of a variable with active nodes gathers
      every active node in order, and so yields exactly `getImplDim` numbers:
      by `GatherBlock`, the i-th block of `dim` of them is the record of the
      i-th active node. Without active nodes the read raises. */
  lemma GetValsMatchesImplDim(v: Variable, f: Field)
    requires Valid(v)
    ensures AllRecorded(v.impl, v.nodes, v.dim)
    ensures |v.nodes| == 0 ==> GetVals(v, f, None) == Raised(NothingToStack, [])
    ensures |v.nodes| > 0 ==> GetVals(v, f, None) == Done(Gather(v.impl, v.nodes, f, v.dim))
    ensures |v.nodes| > 0 ==> |GetVals(v, f, None).value| == ImplDim(v)
  {
    RecordsOf(v, v.nodes);
    if |v.nodes| > 0 {
      GetValsAllActive(v, f);
    } else {
      CheckNodesAll(v.nodes);
    }
  }

  /** With every active node requested, the gathered values are all the
      active nodes' blocks, `ImplDim(v)` entries in all. */
  lemma GetValsAllActive(v: Variable, f: Field)
    requires Valid(v) && |v.nodes| > 0
    ensures AllRecorded(v.impl, v.nodes, v.dim)
    ensures GetVals(v, f, None) == Done(Gather(v.impl, v.nodes, f, v.dim))
    ensures |GetVals(v, f, None).value| == ImplDim(v)
  {
    CheckNodesAll(v.nodes);
    assert CheckNodes(v.nodes, v.nodes) == v.nodes;
    assert v.nodes[0] in v.nodes;
    RecordsOf(v, v.nodes);
    assert !GetVals(v, f, None).Raised?;
    BlockStartIsProduct(|v.nodes|, v.dim);
  }

  /** Asking only for nodes the variable does not have makes the read raise,
      as the empty stack does. */
  lemma GetValsOfInactiveRaises(v: Variable, f: Field, req: seq<int>)
    requires Valid(v)
    requires forall n :: n in req ==> n !in v.nodes
    ensures GetVals(v, f, Some(req)) == Raised(NothingToStack, [])
  {
  }

  /** `getVarOffset`: the cached view for `off`, or a new one that is cached. */
  function GetVarOffset(v: Variable, off: int): (r: (Variable, OffsetView))
    requires Valid(v)
    ensures Valid(r.0)
    ensures r.1 == OffsetView(v.name, v.dim, off)
    ensures off in r.0.offsets && r.0.offsets[off] == r.1
    ensures off in v.offsets ==> r.0 == v
    ensures r.0.nodes == v.nodes && r.0.impl == v.impl && r.0.gen == v.gen
    ensures forall o :: o in v.offsets ==> o in r.0.offsets && r.0.offsets[o] == v.offsets[o]
  {
    if off in v.offsets then (v, v.offsets[off])
    else
      var w := OffsetView(v.name, v.dim, off);
      (v.(offsets := v.offsets[off := w]), w)
  }

  /** Asking twice for the same offset yields the same view and no change. */
  lemma GetVarOffsetCached(v: Variable, off: int)
    requires Valid(v)
    ensures GetVarOffset(GetVarOffset(v, off).0, off) == GetVarOffset(v, off)
  {
  }

  /** The nodes an offset view can currently reach: the keys of the parent's
      record map, in insertion order, re-read on every access. */
  function ViewNodes(base: Variable): (r: seq<int>)
    ensures NoDup(r)
    ensures forall n :: n in r <==> n in base.nodes
  {
    Dedupe(base.nodes)
  }

  /** Parent node m is asked for when m - offset is a requested view node
      (by default: every node the view can reach). */
  ghost predicate Requested(w: OffsetView, base: Variable, nodes: Option<seq<int>>, m: int) {
    if nodes.None? then m - w.offset in base.impl else m - w.offset in nodes.value
  }

  /** The parent nodes an offset read resolves to: request node n maps to
      n + offset, kept only if the parent has a record there. */
  function OffsetResolve(w: OffsetView, base: Variable, nodes: Option<seq<int>>): seq<int> {
    var own := ViewNodes(base);
    CheckShifted(if nodes.None? then own else nodes.value, own, w.offset)
  }

  /** An offset read reaches each parent node at most once. */
  lemma ResolveNoDup(w: OffsetView, base: Variable, nodes: Option<seq<int>>)
    requires Valid(base)
    ensures NoDup(OffsetResolve(w, base, nodes))
  {
  }

  /** Every resolved node has a record in the parent. */
  lemma ResolveInParent(w: OffsetView, base: Variable, nodes: Option<seq<int>>)
    requires Valid(base)
    ensures forall i :: 0 <= i < |OffsetResolve(w, base, nodes)| ==> OffsetResolve(w, base, nodes)[i] in base.impl
  {
    var r := OffsetResolve(w, base, nodes);
    forall i | 0 <= i < |r| ensures r[i] in base.impl {
      var x := r[i];
      assert x in r;
    }
  }

  /** The resolved nodes are exactly the parent's nodes that were asked for. */
  lemma ResolveMembers(w: OffsetView, base: Variable, nodes: Option<seq<int>>)
    requires Valid(base)
    ensures forall m {:trigger m in OffsetResolve(w, base, nodes)} :: m in OffsetResolve(w, base, nodes) <==> m in base.impl && Requested(w, base, nodes, m)
  {
    if nodes.None? {
      ResolveMembersDefault(w, base);
    } else {
      ResolveMembersGiven(w, base, nodes.value);
    }
  }

  lemma ResolveMembersDefault(w: OffsetView, base: Variable)
    requires Valid(base)
    ensures forall m {:trigger m in OffsetResolve(w, base, None)} :: m in OffsetResolve(w, base, None) <==> m in base.impl && m - w.offset in base.impl
  {
    CheckShiftedOwn(ViewNodes(base), base.impl.Keys, w.offset);
  }

  lemma ResolveMembersGiven(w: OffsetView, base: Variable, ns: seq<int>)
    requires Valid(base)
    ensures forall m {:trigger m in OffsetResolve(w, base, Some(ns))} :: m in OffsetResolve(w, base, Some(ns)) <==> m in base.impl && m - w.offset in ns
  {
    CheckShiftedOver(ns, ViewNodes(base), base.impl.Keys, w.offset);
  }

  /** `OffsetVariable.getImpl`: the parent's symbols at the resolved nodes. */
  function OffsetGetImpl(w: OffsetView, base: Variable, nodes: Option<seq<int>>): (r: seq<Symbol>)
    requires Valid(base)
    ensures var res := OffsetResolve(w, base, nodes);
      |r| == |res| && forall i :: 0 <= i < |res| ==> res[i] in base.impl && r[i] == base.impl[res[i]].sym
  {
    var res := OffsetResolve(w, base, nodes);
    ResolveInParent(w, base, nodes);
    seq(|res|, i requires 0 <= i < |res| && res[i] in base.impl => base.impl[res[i]].sym)
  }

  lemma NoDupAllEqual(s: seq<int>, c: int)
    requires NoDup(s)
    requires forall m :: m in s <==> m == c
    ensures s == [c]
  {
    assert c in s;
    FirstTwo(s);
  }

  lemma FirstTwo<T>(s: seq<T>)
    requires NoDup(s)
    ensures |s| > 0 ==> s[0] in s
    ensures |s| > 1 ==> s[1] in s && s[0] != s[1]
  {
  }

  /** Reading node n through an offset view returns the parent's symbol at
      n + offset, or nothing when the parent has no such node. */
  lemma OffsetReadsShiftedNode(w: OffsetView, base: Variable, n: int)
    requires Valid(base)
    ensures OffsetGetImpl(w, base, Some([n])) ==
      if n + w.offset in base.impl then [base.impl[n + w.offset].sym] else []
  {
    if n + w.offset in base.impl {
      ReadPresentNode(w, base, n);
    } else {
      ReadMissingNode(w, base, n);
    }
  }

  lemma ReadPresentNode(w: OffsetView, base: Variable, n: int)
    requires Valid(base) && n + w.offset in base.impl
    ensures OffsetGetImpl(w, base, Some([n])) == [base.impl[n + w.offset].sym]
  {
    var out := OffsetGetImpl(w, base, Some([n]));
    ResolveSingle(w, base, n);
    Singleton(out, base.impl[n + w.offset].sym);
  }

  lemma ReadMissingNode(w: OffsetView, base: Variable, n: int)
    requires Valid(base) && n + w.offset !in base.impl
    ensures OffsetGetImpl(w, base, Some([n])) == []
  {
    ResolveSingle(w, base, n);
  }

  lemma Singleton<T>(s: seq<T>, x: T)
    requires |s| == 1 && s[0] == x
    ensures s == [x]
  {
  }

  /** A read of the single view node n resolves to n + offset when the
      parent has that node, and to nothing otherwise. */
  lemma ResolveSingle(w: OffsetView, base: Variable, n: int)
    requires Valid(base)
    ensures OffsetResolve(w, base, Some([n])) == if n + w.offset in base.impl then [n + w.offset] else []
  {
    var res := OffsetResolve(w, base, Some([n]));
    var c := n + w.offset;
    ResolveMembers(w, base, Some([n]));
    forall m ensures m in res <==> m == c && m in base.impl {
      assert Requested(w, base, Some([n]), m) <==> m - w.offset == n;
    }
    if c in base.impl {
      ResolveNoDup(w, base, Some([n]));
      NoDupAllEqual(res, c);
    } else {
      FirstTwo(res);
    }
  }

  /** Because a view re-reads its parent, after a reprojection onto `ns` a
      default read reaches exactly the nodes m of `ns` with m - offset in `ns`. */
  lemma OffsetFollowsReprojection(w: OffsetView, base: Variable, ns: seq<int>)
    requires Valid(base)
    ensures forall m {:trigger m in OffsetResolve(w, Project(base, ns), None)} :: m in OffsetResolve(w, Project(base, ns), None) <==>
      m in ns && m - w.offset in ns
  {
    var p := Project(base, ns);
    forall m ensures m in OffsetResolve(w, p, None) <==> m in ns && m - w.offset in ns {
      ResolveDefault(w, p, m);
      var k := m - w.offset;
      assert m in p.impl <==> m in ns;
      assert k in p.impl <==> k in ns;
    }
  }

  /** A default read reaches parent node m when both m and m - offset are
      nodes of the parent. */
  lemma ResolveDefault(w: OffsetView, base: Variable, m: int)
    requires Valid(base)
    ensures m in OffsetResolve(w, base, None) <==> m in base.impl && m - w.offset in base.impl
  {
    ResolveMembers(w, base, None);
    assert Requested(w, base, None, m) <==> m - w.offset in base.impl;
  }

  // ----- node-independent variables -----

  datatype SingleVariable = SingleVariable(name: string, dim: nat, rec: Record)

  /** A single variable starts unbounded with a zero guess. */
  function NewSingleVariable(name: string, dim: nat): (r: SingleVariable)
    ensures r.name == name && r.dim == dim && RecordDim(r.rec, dim)
    ensures forall i :: 0 <= i < dim ==>
      r.rec.lb[i] == NegInf && r.rec.ub[i] == PosInf && r.rec.w0[i] == Fin(0.0)
  {
    SingleVariable(name, dim, Record(Symbol(name, -1, 0), Fill(dim, NegInf), Fill(dim, PosInf), Fill(dim, Fin(0.0))))
  }

  /** The single variable's setters: same dimension check, one record. */
  function SetSingleField(sv: SingleVariable, f: Field, vals: Vec): (r: Outcome<SingleVariable>)
    ensures r.Raised? <==> |vals| != sv.dim
    ensures r.Raised? ==> r.partial == sv
    ensures r.Done? ==> r.value.rec.Get(f) == vals && r.value.name == sv.name && r.value.dim == sv.dim
    ensures r.Done? ==> forall g :: g != f ==> r.value.rec.Get(g) == sv.rec.Get(g)
  {
    if |vals| != sv.dim then Raised(WrongDimension, sv)
    else Done(sv.(rec := sv.rec.With(f, vals)))
  }

  // ----- node-dependent parameters -----

  function Zeros(n: nat): seq<real> {
    Fill(n, 0.0)
  }

  /** A parameter keeps one value per node; a value is a numpy array, seen
      here as a column matrix whose `rows` is the checked dimension. */
  datatype Parameter = Parameter(name: string, dim: nat, nodes: seq<int>, values: map<int, Matrix>)

  ghost predicate ValidParameter(p: Parameter) {
    forall n :: n in p.nodes <==> n in p.values
  }

  /** Rebuilds the values for node list `ns`: kept nodes keep their value, new
      nodes get the zero vector (the intended `Parameter._project`). */
  function ProjectParameter(p: Parameter, ns: seq<int>): (r: Parameter)
    ensures ValidParameter(r) && r.nodes == ns && r.name == p.name && r.dim == p.dim
    ensures forall n :: n in ns && n in p.values ==> r.values[n] == p.values[n]
    ensures forall n :: n in ns && n !in p.values ==> r.values[n] == Column(Zeros(p.dim))
  {
    p.(nodes := ns, values := map n | n in ns :: if n in p.values then p.values[n] else Column(Zeros(p.dim)))
  }

  function NewParameter(name: string, dim: nat, nodes: seq<int>): (r: Parameter)
    ensures ValidParameter(r) && r.nodes == nodes && r.dim == dim
    ensures forall n :: n in r.values ==> r.values[n] == Column(Zeros(dim))
  {
    ProjectParameter(Parameter(name, dim, [], map[]), nodes)
  }

  /** `Parameter.assign`: raise when the value's first dimension is not `dim`,
      otherwise store it at the selected nodes and nowhere else. */
  function Assign(p: Parameter, vals: Matrix, nodes: Option<seq<int>>): (r: Outcome<Parameter>)
    requires ValidParameter(p)
    ensures r.Raised? <==> vals.rows != p.dim
    ensures r.Raised? ==> r.error == WrongDimension && r.partial == p
    ensures r.Done? ==> ValidParameter(r.value) && r.value.nodes == p.nodes
    ensures r.Done? ==> r.value.name == p.name && r.value.dim == p.dim
    ensures r.Done? ==> forall n :: n in p.values ==>
      r.value.values[n] == if nodes.None? || n in nodes.value then vals else p.values[n]
  {
    var sel := if nodes.None? then p.nodes else CheckNodes(nodes.value, p.nodes);
    if vals.rows != p.dim then Raised(WrongDimension, p)
    else Done(p.(values := map n | n in p.values :: if n in sel then vals else p.values[n]))
  }
}
